=== FILE: README.md ===
# pipumpkin, modelled in Dafny

pipumpkin is a small daemon that speaks text out loud. It has two producers:

- a mailbox reader (`EmailFeed`, and the older `IMAPMonitor`), which reads unseen e-mail;
- a Twitter monitor (`TweeterFeedMonitor` over `TweeterFeed`), which reads mentions.

Each producer turns what it reads into entries on a release queue. An entry carries a due time, a text and a map of `key:value` flags. The speaking loop (`PiPumpkin`) has these steps:

- It takes due entries off the queue.
- It turns their `rate`, `volume` and `voice` flags into speech engine properties, filling gaps with defaults.
- It says the text.
- It mails a heartbeat every half hour.

This project models the decisions of that pipeline as pure functions over immutable state, one step at a time:

- **Directive parser.** The parser finds the leftmost non-overlapping matches of `(\w+):(\S+)`. It lower-cases the keys into a flag map, where a later duplicate wins, and deletes the matched spans from the text. The modules are `Scanning` and `Directives`.
- **Delay rule.** The rule is `re.match("(\d+)(\w)")` with its backtracking. An accepted delay is one of s, m or h. A rejected one is echoed as `"?"`. `timedelta` and `datetime` overflow are covered too.
- **Scheduling of one e-mail.** This step applies the heartbeat and empty-text filters and reads the Date header. The modules are `Messages`, `EmailFeed` and `ImapMonitor`.
- **Plain-text extraction over a MIME tree.** There are two versions: the walk-based one in the mailbox feed and the recursive one in the IMAP monitor. Given the same payload decoder they are proved equal. The two readers do not decode alike, though: the mailbox feed undoes every transfer encoding and the charset, while the monitor only undoes base64, so on a quoted-printable part the two texts differ. The module is `Mime`.
- **Mailbox polling step.** It drains the send queue in FIFO order. The rate gate is strict greater-than. A failed fetch aborts the batch.
- **Release queue and dispatcher tick.** The queue is a sorted sequence ordered by time, then text. A tick pops the head if it is due; otherwise it puts the head back and the queue is unchanged. It then casts and filters flags, sets every defaulted property once, and says the text once. The modules are `ReleaseQueue` and `Pumpkin`.
- **Mention ingestion.** The cursor advances to the newest id. Mentions are enqueued oldest first. A case-insensitive `@name` is removed and the text is stripped. Each mention yields a sentence and an acknowledgement. The module is `FeedMonitor`.
- **Tweet formatting and screen-name cache.** Templates are truncated to 140 characters. `since_id` is selected by truthiness. The module is `Tweeter`.

## Modelling conventions

- **Time.** Time is a whole number of microseconds since `datetime.min` (`Clock.Instant`), bounded by `datetime.max`. Strict gates (`now - last > period`) are exact.
- **Regular expressions.** The regular expressions are Python 2's without `re.UNICODE`:
  - `\w` is `[A-Za-z0-9_]`;
  - `\s` is ASCII white space;
  - `\d` is `[0-9]`;
  - `re.IGNORECASE` folds ASCII letters only.
- **Scanning.**
  - `findall` and `sub` are one generic leftmost scanner, `Scanning.Scan`.
  - It is proved to produce the unique parse described by `Scanning.IsLeftmostParse`.
  - That description says the spans are in order, each is the matcher's match at its start, and no match starts at any uncovered position.
- **Inputs.** Network answers, clock readings, `dateutil` results, decoded payloads and the `float` cast are parameters.
- **Speech engine.** The speech engine is the sequence of calls made to it.
- **Failures.** Exceptions that escape a step are values: `ParseOutcome.Raised`, `Check.crashed`, `ReplyRaised`.
- **`volume` cast.** `float(v)` stays abstract (`Pumpkin.FloatCast`).
- **Rendering of the delay.** `str(float(n))` is "n.0" below 10^12, and `'%.12g'` exponent form above that.

Facts about the code that a reader might not expect:

- **Clean text.** The text put on the queue is not trimmed after the directives are deleted: "Hello there rate:100 delay:2s" is queued as "Hello there  ".
- **Echoed delay.** The delay is echoed as "2.0 seconds", not "2 seconds" (`Scenario.MessageIsScheduled`).
- **Reconnecting.** The reconnect loops sleep a fixed time after an error. There is no back-off and no liveness check.
- **Non-ASCII text.** The mailbox feed and the Twitter monitor work on unicode text, and both format it into byte strings for their logs. A flag value outside ASCII makes the mailbox feed raise (src/pipumpkin/emailfeed.py:222). A tweet outside ASCII makes the monitor raise (src/pipumpkin/feedmonitor.py:103), after the cursor has moved past it.

## Model

| member | source | states |
|---|---|---|
| Scanning.Scan | src/pipumpkin/emailfeed.py:193 | the spans found from a position are a leftmost non-overlapping parse: in order, each one a match at its start, and no match starting at any position they leave uncovered |
| Scanning.ScanIsTheLeftmostParse | src/pipumpkin/emailfeed.py:193 | a sequence of spans is a leftmost non-overlapping parse of the text exactly when it is the one the scanner finds |
| Scanning.ParseUnique | src/pipumpkin/emailfeed.py:193 | a text has at most one leftmost non-overlapping parse, so the declarative description fixes what `findall` reports |
| Scanning.SubDeletesScannedSpans | src/pipumpkin/emailfeed.py:196 | `re.sub(pattern, "", text)` equals the text with exactly the scanned spans deleted and every unmatched segment kept in order |
| Scanning.SubWithoutMatches | src/pipumpkin/imapmonitor.py:137 | with no match anywhere, `sub` returns the text unchanged and `findall` reports nothing |
| Directives.TokenAtIsRegexMatch | src/pipumpkin/emailfeed.py:193 | the token finder succeeds at a position exactly when `(\w+):(\S+)` can match there, and then returns the greedy, longest match with the colon right after the word run |
| Directives.Tokens | src/pipumpkin/emailfeed.py:193 | the token spans are the leftmost non-overlapping `(\w+):(\S+)` matches of the text |
| Directives.TokenPair | src/pipumpkin/emailfeed.py:193 | the two groups of a match are non-empty and the matched text is key, colon, value |
| Directives.FindAll | src/pipumpkin/emailfeed.py:193 | `findall` gives one (key, value) pair per token span, in left-to-right order |
| Directives.FlagMap | src/pipumpkin/emailfeed.py:194 | a key is in the flag map iff some pair's lower-cased key equals it, and it maps to the value of the last such pair, so a later duplicate wins |
| Directives.Parse | src/pipumpkin/emailfeed.py:193-196 | the clean text is the input with exactly the token spans deleted and not re-trimmed; the flags are the lower-cased map of all matches |
| Directives.ParseWithoutTokens | src/pipumpkin/imapmonitor.py:135-137 | text without any `key:value` token gives no flags and is passed on unchanged |
| Directives.DelayGroupsIsRegexMatch | src/pipumpkin/emailfeed.py:203-205 | `re.match("(\d+)(\w)")` matches iff the value starts with digits and a word character, and the groups are the longest such digit prefix and the character after it; backtracking makes "123" give ("12", "3") |
| Directives.DelayAcceptance | src/pipumpkin/emailfeed.py:203-213 | a delay is accepted iff the value begins with digits immediately followed by s, m or h, and its magnitude is those digits' value; "5m30s" is five minutes |
| Directives.FloatText | src/pipumpkin/emailfeed.py:219 | the echoed number is "n.0" for every whole n below 10^12 |
| Directives.ApplyDelay | src/pipumpkin/emailfeed.py:198-219 | no delay flag changes nothing; a rejected value becomes "?" and keeps the time; an accepted one moves the time by n seconds, minutes or hours and is echoed as "<float(n)> <unit>", unless the timedelta or the datetime overflows; other flags are untouched |
| ReleaseQueue.Insert | src/pipumpkin/pumpkin.py:145 | putting an entry on the sorted queue keeps it sorted by (time, text) and adds exactly that entry to its contents |
| ReleaseQueue.TryPopDue | src/pipumpkin/pumpkin.py:135-146 | an empty queue or a head in the future leaves the queue exactly as it was with nothing taken; otherwise the due head, the minimum, is removed once and nothing else is lost |
| Mime.WalkPlainText | src/pipumpkin/emailfeed.py:152-166 | the walked plain text is the concatenation of stripped text/plain payloads, so it has no surrounding white space |
| Mime.RecursivePlainText | src/pipumpkin/imapmonitor.py:98-114 | a leaf that is not text/plain contributes "", and the result never has surrounding white space |
| Mime.RecursiveEqualsWalk | src/pipumpkin/imapmonitor.py:98-114 | the recursive extraction equals the walk-based one: a part's own stripped payload, then its sub-parts' texts in order |
| Messages.BaseTime | src/pipumpkin/emailfeed.py:185-190 | the time before any delay is the Date header's when present, else now; an unparseable header raises |
| Messages.Schedule | src/pipumpkin/emailfeed.py:180-219 | empty text is skipped, and only empty text is; the queued text is the input with its tokens deleted and its flags have the parsed keys; with no delay flag the entry is due at the base time; with one, an accepted delay makes it due at the base time plus the delay with the echoed flags, a rejected one keeps the base time with "?", and an overflowing one raises (the raise on a non-ASCII flag value is the mailbox feed's own, in `EmailFeed.ParseEmail`, since the IMAP monitor's copy of these rules does not raise) |
| Messages.ProcessFetches | src/pipumpkin/emailfeed.py:143-150 | the batch keeps the queue sorted and only adds entries that some fetched message produced, and completes iff every fetch succeeded and no parse raised |
| Messages.StopAt | src/pipumpkin/emailfeed.py:143-150 | the batch stops at the first fetch that failed or whose parse raised: every earlier fetch succeeded without an exception |
| Messages.BatchIsReference | src/pipumpkin/emailfeed.py:143-150 | the batch adds exactly the entries of the messages before the first stop, in order; it completes iff there is no stop; its exception is the one raised by the message at the stop, and there is none when the stop is a failed fetch |
| Messages.FailedFetchStopsBatch | src/pipumpkin/emailfeed.py:143-147 | whatever follows a failed fetch is never looked at: the batch ends as the batch of the preceding fetches alone |
| EmailFeed.ParseEmail | src/pipumpkin/emailfeed.py:168-229 | mail with the heartbeat subject is skipped before anything else; any other mail is scheduled from its walked plain text, except that an entry with a flag value outside ASCII raises UnicodeEncodeError when its flags are formatted, so every queued entry has ASCII flag values |
| EmailFeed.SendHeartbeat | src/pipumpkin/emailfeed.py:231-241 | a heartbeat mail from the user to the user with the heartbeat subject is appended to the send queue and nothing else changes |
| EmailFeed.HeartbeatIsSkipped | src/pipumpkin/emailfeed.py:174-176 | a heartbeat the feed sent is skipped when it comes back through the mailbox, whatever it says |
| EmailFeed.HeartbeatsNeverQueued | src/pipumpkin/emailfeed.py:174-176 | a batch whose fetched messages are all heartbeats leaves the release queue unchanged |
| EmailFeed.DrainSendQueue | src/pipumpkin/emailfeed.py:110-122 | every pending mail is sent in FIFO order from the user to the user only, and an SMTP session is opened iff something was pending |
| EmailFeed.Loop | src/pipumpkin/emailfeed.py:104-150 | the send queue is always emptied; an SMTP error after k mails ends the iteration with only the first k sent, the rest lost and no search; otherwise the mailbox is searched iff more than one second has passed, and only then is `last_imap_search` moved to now; a failed search changes no queue; a searched batch leaves the queue and exception the batch gives |
| EmailFeed.SearchesAreSpacedOut | src/pipumpkin/emailfeed.py:125-129 | after a search, no iteration within `imap_poll_delay` of it searches again, whatever its SMTP outcome or search answer |
| ImapMonitor.ParseEmailAsWritten | src/pipumpkin/imapmonitor.py:116-167 | as written, any text holding a token raises TypeError, and whatever is queued has no flags and its text unchanged |
| ImapMonitor.AsWrittenRaisesOnDirective | src/pipumpkin/imapmonitor.py:135 | "hi rate:100" raises as written, while the corrected parser queues "hi " with rate=100 |
| ImapMonitor.AsWrittenLoopDiesOnDirective | src/pipumpkin/imapmonitor.py:86-96 | one fetched "hi rate:100" mail: the loop as written ends with TypeError, the queue untouched and no sleep, while the corrected loop queues "hi " with rate=100 and sleeps |
| ImapMonitor.ParseEmail | src/pipumpkin/imapmonitor.py:116-160 | empty recursive plain text is never queued, and queued text has exactly its tokens deleted |
| ImapMonitor.SameRulesAsMailboxFeed | src/pipumpkin/imapmonitor.py:139-167 | apart from the heartbeat filter, the monitor schedules a message exactly as the mailbox feed does with base64-only decoding: same text, flags, delay and "?" sentinel; the one difference is an entry with a flag value outside ASCII, on which the mailbox feed raises and which the monitor queues |
| ImapMonitor.AgreeWithoutTokens | src/pipumpkin/imapmonitor.py:135-137 | without a token, the as-written and corrected parsers agree: no flags, text unchanged |
| ImapMonitor.LoopWith | src/pipumpkin/imapmonitor.py:73-96 | for any `parse_email`: a failed search changes nothing; the poll-delay sleep happens iff the batch is non-empty and every fetch succeeded with no exception, and then exactly the entries the messages made are added; in every case the queue gains exactly the entries of the messages before the first failed fetch or raising parse, so a failed fetch abandons the rest of the batch; the exception is the one raised by the message that stopped the batch |
| ImapMonitor.LoopAsWritten | src/pipumpkin/imapmonitor.py:73-96 | with `parse_email` as written, the loop sleeps only after a batch in which no fetched message with text and a readable Date holds a `key:value` token |
| ImapMonitor.Loop | src/pipumpkin/imapmonitor.py:73-96 | with the corrected `parse_email` (keys lower-cased one by one): a failed search changes nothing; the sleep happens iff the batch is non-empty and every fetch succeeded with no exception, and then every entry the batch made is on the queue; a batch that stops early keeps exactly the entries of the messages before the stop |
| Pumpkin.IntCast | src/pipumpkin/pumpkin.py:45 | `int()` succeeds exactly on an optionally signed run of ASCII digits with surrounding white space, and a bare digit run gives the digits' value (the signed and padded forms are `Pumpkin.IntCastValue`) |
| Pumpkin.IntCastValue | src/pipumpkin/pumpkin.py:156-157 | every literal `int()` accepts reads as its signed value: white space, an optional sign, white space after the sign, digits and white space give the digits' value, negated exactly when the sign is "-" |
| Pumpkin.IntCastRoundTrip | src/pipumpkin/pumpkin.py:157 | `int(str(n)) == n` for every integer |
| Pumpkin.StrCast | src/pipumpkin/pumpkin.py:45 | `str()` of a unicode value succeeds exactly when it is all ASCII, and then keeps it |
| Pumpkin.Cast | src/pipumpkin/pumpkin.py:150-159 | only rate, volume and voice have a cast (int, float, str); an unknown key or a raising cast gives nothing |
| Pumpkin.CastFlags | src/pipumpkin/pumpkin.py:149-160 | exactly the supported flags whose value casts survive, converted; all others are dropped without aborting the entry |
| Pumpkin.Settings | src/pipumpkin/pumpkin.py:163-165 | every default property gets the converted flag if present and its default otherwise, and no other property is set |
| Pumpkin.Utterance | src/pipumpkin/pumpkin.py:162-170 | one utterance sets each property to its setting and then says the text, last |
| Pumpkin.UtteranceSetsEachOnce | src/pipumpkin/pumpkin.py:162-170 | each supported property is set exactly once and the text is said exactly once, after all of them |
| Pumpkin.Defaults | src/pipumpkin/pumpkin.py:85-93 | the defaults cover exactly rate, volume and voice: rate 135, voice "english", and the engine's own volume |
| Pumpkin.Start | src/pipumpkin/pumpkin.py:84-99 | start-up puts the "Ready to go!" heartbeat on the send queue, starts the heartbeat clock now and leaves the release queue alone |
| Pumpkin.Loop | src/pipumpkin/pumpkin.py:121-170 | a heartbeat goes out iff more than 30 minutes have passed, and only then is `last_heartbeat` moved; nothing is spoken iff no entry is due, and then the queue is unchanged and no property is set; otherwise the due head is removed once, its contents are kept apart, and its utterance uses the cast flags over the defaults |
| Pumpkin.SpokenWithDefaultsFilled | src/pipumpkin/pumpkin.py:148-170 | for a spoken entry every property is set exactly once, to the cast flag when one survives and to the default otherwise, and the text is said exactly once, last |
| Pumpkin.UtteranceStarted | src/pipumpkin/pumpkin.py:71-72 | the start callback raises the utterance counter by one and changes nothing else |
| Pumpkin.UtteranceFinished | src/pipumpkin/pumpkin.py:73-74 | the finish callback lowers the utterance counter by one and changes nothing else |
| Pumpkin.MainIteration | src/pipumpkin/pumpkin.py:109-115 | `loop()` runs only while the utterance counter is 0; otherwise nothing changes |
| Pumpkin.SilentWhileSpeaking | src/pipumpkin/pumpkin.py:109-115 | between the start and the finish of an utterance nothing is spoken and the state is untouched; after the finish the loop runs as before |
| Tweeter.AliveText | src/pipumpkin/tweeter.py:48 | the alive tweet is at most 140 characters, a prefix of "I'm alive! (status)", all of it when it fits and exactly 140 characters otherwise |
| Tweeter.TweetAlive | src/pipumpkin/tweeter.py:39-54 | the status posted is the alive text, and the call reports success iff the update did not raise |
| Tweeter.GetScreenName | src/pipumpkin/tweeter.py:56-62 | the API is queried iff the cache is not a non-empty name; a cached name is returned unchanged; a queried name is remembered |
| Tweeter.ScreenNameIsMemoised | src/pipumpkin/tweeter.py:60-62 | once a non-empty name is fetched, later lookups never query again and return that name whatever the API says |
| Tweeter.EmptyNameIsAskedAgain | src/pipumpkin/tweeter.py:60-61 | an empty screen name is not treated as cached: the next lookup queries again |
| Tweeter.GetLatestMentionId | src/pipumpkin/tweeter.py:64-77 | a TweepError becomes FeedError; an empty timeline gives None; otherwise the first tweet's id |
| Tweeter.MentionsQuery | src/pipumpkin/tweeter.py:85-90 | users are always trimmed, and `since_id` is passed iff it is truthy (neither None nor 0), unchanged |
| Tweeter.GetMentionsAfter | src/pipumpkin/tweeter.py:79-96 | a TweepError becomes FeedError; otherwise every tweet the query returns, in its order |
| Tweeter.ZeroCursorIsNoCursor | src/pipumpkin/tweeter.py:85 | a cursor of 0 asks for the same tweets as no cursor |
| Tweeter.PostReply | src/pipumpkin/tweeter.py:98-109 | the reply is "@" + own name + " " + text, cut to 140 characters (the whole text when it fits, exactly 140 characters of it otherwise) and sent in reply to the id; success iff the update did not raise; a failing name lookup escapes |
| FeedMonitor.Mentions | src/pipumpkin/feedmonitor.py:105-108 | the deleted occurrences are the leftmost non-overlapping case-insensitive matches of "@" + name |
| FeedMonitor.StripMention | src/pipumpkin/feedmonitor.py:105-112 | the queued text is the tweet with exactly those occurrences deleted, then stripped |
| FeedMonitor.StripMentionWithoutMention | src/pipumpkin/feedmonitor.py:105-112 | a tweet that does not mention the account is only stripped |
| FeedMonitor.StripMentionIgnoresCase | src/pipumpkin/feedmonitor.py:105-108 | "@PiPumpkin hello" to the account "pipumpkin" queues "hello" |
| FeedMonitor.OldestFirst | src/pipumpkin/feedmonitor.py:102 | walking `reversed(new_mentions)` visits the last tweet first: position k holds the image of the element k from the end |
| FeedMonitor.MentionSentences | src/pipumpkin/feedmonitor.py:102-114 | one sentence per mention, oldest first, each the tweet's time with its stripped text |
| FeedMonitor.Acknowledgements | src/pipumpkin/feedmonitor.py:102-115 | one "Acknowledged." reply per mention, oldest first, addressed to that tweet's id |
| FeedMonitor.AsciiPrefix | src/pipumpkin/feedmonitor.py:102-103 | the tweets logged, oldest first, before the first whose text is not ASCII: all of them are ASCII, and the next one, if any, is not |
| FeedMonitor.CheckForMentions | src/pipumpkin/feedmonitor.py:84-115 | a FeedError or an empty answer changes nothing; otherwise the cursor becomes the newest tweet's id; if the name lookup raises nothing is queued and the step crashes; otherwise both queues grow by one entry per tweet, oldest first, up to the first tweet whose text is not ASCII, where the step crashes |
| FeedMonitor.AsciiMentionsAllQueued | src/pipumpkin/feedmonitor.py:99-115 | when every mention is ASCII and the name is known, the step does not crash and both queues grow by exactly one entry per mention |
| FeedMonitor.NonAsciiMentionCrashes | src/pipumpkin/feedmonitor.py:102-103 | any mention whose text is not ASCII makes the step crash |
| FeedMonitor.AcknowledgementsOldestFirst | src/pipumpkin/feedmonitor.py:101-102 | for a newest-first timeline the acknowledgements are queued in increasing id order |
| FeedMonitor.CheckForReplies | src/pipumpkin/feedmonitor.py:71-82 | the oldest queued reply, if any, is taken off the queue once and posted; nothing else changes |
| FeedMonitor.LoopAsWritten | src/pipumpkin/feedmonitor.py:62-69 | as written, mentions are checked iff more than ten seconds have passed since the check time, which is never updated; unless the mention check crashes, the reply queue is served on every iteration, and the step crashes iff the mention check crashed or the reply post raised |
| FeedMonitor.GateNeverClosesAsWritten | src/pipumpkin/feedmonitor.py:65-68 | as written, once ten seconds have passed after start-up, every later iteration checks mentions again |
| FeedMonitor.Loop | src/pipumpkin/feedmonitor.py:62-69 | mentions are checked iff more than ten seconds have passed, and the check time then becomes now; the cursor, the queues, the reply posted and the crash are those of the as-written step |
| FeedMonitor.ChecksAreSpacedOut | src/pipumpkin/feedmonitor.py:34-35 | with the refresh, no two mention checks come within ten seconds of each other |
| FeedMonitor.FirstLatestId | src/pipumpkin/feedmonitor.py:49-56 | start-up retries until the first attempt that does not raise FeedError, and keeps the id it returned |
| FeedMonitor.RunAsWritten | src/pipumpkin/feedmonitor.py:41-60 | as written the thread never reaches its loop: after a successful start-up it dies of NameError |
| FeedMonitor.Run | src/pipumpkin/feedmonitor.py:41-60 | the thread listens iff some start-up attempt succeeds, with the cursor from the first one and the check time taken at start-up; every earlier attempt raised |
| Scenario.MessageIsScheduled | src/pipumpkin/emailfeed.py:193-219 | "Hello there rate:100 delay:2s" received at t0 is queued for t0 + 2 s as "Hello there  " with rate=100 and delay="2.0 seconds" |
| Scenario.MessageWaits | src/pipumpkin/pumpkin.py:142-146 | one second after t0 that entry is put back and nothing is said |
| Scenario.MessageIsSpokenWhenDue | src/pipumpkin/pumpkin.py:142-170 | three seconds after t0 the entry leaves the queue, the rate is set to 100 first and the clean text is said last |
| Text.StripIdempotent | src/pipumpkin/feedmonitor.py:112 | stripping twice is stripping once |
| Text.DecimalRoundTrip | src/pipumpkin/pumpkin.py:157 | reading back the decimal digits of a natural number gives the number |

## Left out

- **Threads and I/O.** The model leaves out threads, `run` reconnect loops, `time.sleep`, the `stop` flags and `join`. Each loop iteration is one step, and sleeps appear only as decisions (`ImapMonitor.Loop`'s `slept`, `FeedMonitor.FirstLatestId`'s position).
- **IMAP, SMTP and tweepy network calls.** Their answers are parameters (`SearchResult`, `FetchResult`, `Timeline`, the screen name, whether an update raised).
- **MIME parsing, charset decoding, base64 decoding.** The tree, the decoded payload and `base64.decodestring` are parameters (`Mime.Decoder`).
- **Mime.WalkPlainText:** its decoder is a total function. In the mailbox feed, a text/plain part without a charset parameter makes `.decode(None, "ignore")` raise TypeError (src/pipumpkin/emailfeed.py:162-163). The model does not represent that exception.
- **Mime.RecursivePlainText:** its `base64Decode` is a total function. `base64.decodestring` raises `binascii.Error` on badly padded input (src/pipumpkin/imapmonitor.py:107), and the model does not represent that exception.
- **The `dateutil` parse of the Date header.** It is the `DateHeader` value: absent, an instant, or unparseable.
- **`subprocess` `ifconfig`.** The address list is a parameter.
- **The pyttsx engine.** It is the log of `setProperty`/`say` calls. `getProperty("volume")` is a parameter of `Pumpkin.Defaults`.
- **JSON configuration and logging.**
- **Pumpkin.Utterance:** it sets properties in the fixed order rate, volume, voice, where Python follows the dictionary's iteration order. Every property is set before `say`, so what is spoken does not depend on the order.
- **ReleaseQueue.KeyLe:** it orders entries by (time, text) only. The Python 2 priority queue breaks a tie by comparing the flag dictionaries.
- **Text.Strip:** it strips ASCII white space only. `unicode.strip` also removes other Unicode spaces.
- **Pumpkin.IntCast:** it accepts ASCII digits and ASCII white space only. Python 2's `int` on unicode also accepts other decimal digits and Unicode white space, so `u"\xa05"` reads as 5 there and is rejected here.
- **Pumpkin.Cast:** the `volume` cast, `float()`, is an abstract partial function. Floating point is not modelled.
- **EmailFeed.Loop:** it uses one clock reading for the rate gate and for every mail in the batch. The code reads the clock again for each mail (src/pipumpkin/emailfeed.py:185), so mails without a Date header get slightly later times than the model gives them.
- **ImapMonitor.Loop:** it gives every mail in a batch the same clock reading `now` through `Parser(now, ..)`. The code reads the clock again for each mail (src/pipumpkin/imapmonitor.py:127), so two mails without a Date header in one batch get distinct, later times there and equal times here.
- **ImapMonitor.LoopAsWritten:** the same single clock reading, through `ParserAsWritten(now, ..)`, where src/pipumpkin/imapmonitor.py:127 reads the clock per mail.
- **FeedMonitor.CheckForMentions:** the screen name is taken to be ASCII. Formatting a non-ASCII name into the pattern would raise as well.
- **FeedMonitor.CheckForMentions:** the sentence queue it fills holds (time, text) pairs, while the speaking loop unpacks (time, text, flags) triples at src/pipumpkin/pumpkin.py:137. The two are not connected in the code, so the model keeps the monitor's queue separate.
- **FeedMonitor.CheckForReplies:** `get` waits up to two seconds for a reply. The model treats an empty queue at the call as the timeout.
- **Tweeter.AliveText:** `"%s" % status` is modelled for a string status only.
- **tests/pyttsx_example.py:** it is a demonstration of the speech engine with no logic of its own.

## Findings

| source | as written | input that shows it | evidently intended | confidence | as-written member | corrected member |
|---|---|---|---|---|---|---|
| src/pipumpkin/imapmonitor.py:135 | `dict(map(str.lower, re.findall(...)))` applies `str.lower` to each (key, value) tuple, which raises TypeError | a message whose text is "hi rate:100" | lower-case each key, as src/pipumpkin/emailfeed.py:194 does, and queue "hi " with rate=100 | not executed | ImapMonitor.AsWrittenRaisesOnDirective | ImapMonitor.SameRulesAsMailboxFeed |
| src/pipumpkin/feedmonitor.py:58 | logs through `log`, a name defined nowhere, so the thread dies of NameError right after start-up succeeds | any start-up whose first `get_latest_mention_id` call returns | log through `self.log` and enter the listening loop | not executed | FeedMonitor.RunAsWritten | FeedMonitor.Run |
| src/pipumpkin/feedmonitor.py:67 | `last_mention_check_time` is set only at start-up (line 47), so after ten seconds the rate gate is open on every iteration | a monitor started at t, stepped at t + 11 s and again at t + 12 s: both steps call the timeline API | refresh the check time whenever mentions are checked, so checks are more than ten seconds apart | not executed | FeedMonitor.GateNeverClosesAsWritten | FeedMonitor.ChecksAreSpacedOut |

=== FILE: clock.dfy ===
/** Timestamps and durations. A `datetime` is modelled as the number of
    microseconds since `datetime.min` (0001-01-01 00:00:00), which is the
    resolution of Python's `datetime` and `timedelta`. */
module Clock {

  const MicrosPerSecond: nat := 1_000_000

  /** `datetime.max` is 9999-12-31 23:59:59.999999, the last microsecond of
      day number 3652059 counted from `datetime.min`. */
  const MaxInstant: nat := 3652059 * 86400 * 1_000_000 - 1

  type Instant = t: int | 0 <= t <= MaxInstant

  function Seconds(n: nat): nat
  {
    n * MicrosPerSecond
  }

  /** The rate-limit comparison `now - last > period` between two datetimes
      and a timedelta; strict, so exactly `period` after `last` is not enough. */
  predicate ElapsedMoreThan(now: Instant, last: Instant, period: nat)
  {
    now - last > period
  }
}

=== FILE: directives.dfy ===
/** The directive parser shared by the mailbox readers: `key:value` tokens
    are found with the pattern `(\w+):(\S+)`, collected into a flag map and
    deleted from the text, and a `delay` flag moves the message's scheduled
    time (src/pipumpkin/emailfeed.py, `parse_email`). */
module Directives {
  import opened Wrappers
  import opened Text
  import opened Clock
  import Scanning

  // ---------------------------------------------------------------------
  // The token pattern (\w+):(\S+)

  predicate NotSpace(c: char)
  {
    !IsSpace(c)
  }

  /** The end of the longest run of `inClass` characters starting at `i`. */
  function RunEnd(s: string, i: nat, inClass: char -> bool): (j: nat)
    requires i <= |s|
    ensures i <= j <= |s|
    ensures forall k :: i <= k < j ==> inClass(s[k])
    ensures j == |s| || !inClass(s[j])
    decreases |s| - i
  {
    if i < |s| && inClass(s[i]) then RunEnd(s, i + 1, inClass) else i
  }

  /** `RunEnd` is the end of the run: the first position past `i` outside
      the class. */
  lemma RunEndIs(s: string, i: nat, j: nat, inClass: char -> bool)
    requires i <= j <= |s|
    requires forall k :: i <= k < j ==> inClass(s[k])
    requires j == |s| || !inClass(s[j])
    ensures RunEnd(s, i, inClass) == j
  {
  }

  /** The match of `(\w+):(\S+)` at `i`, if any. `\w` never matches `:`, so
      the word part must be the whole word run starting at `i`; `\S+` is
      greedy and takes the whole non-space run after the colon. */
  function TokenAt(s: string, i: nat): (r: Option<nat>)
    ensures r.Some? ==> i < r.value <= |s|
  {
    if i >= |s| then None
    else
      var c := RunEnd(s, i, IsWordChar);
      if c > i && c + 1 < |s| && s[c] == ':' && !IsSpace(s[c + 1]) then Some(RunEnd(s, c + 1, NotSpace))
      else None
  }

  /** `s[i..e]` matches `(\w+):(\S+)` with the colon at `c`, greedy or not. */
  ghost predicate TokenShape(s: string, i: int, c: int, e: int)
  {
    && 0 <= i < c && c + 1 < e <= |s|
    && (forall k :: i <= k < c ==> IsWordChar(s[k]))
    && s[c] == ':'
    && (forall k :: c < k < e ==> !IsSpace(s[k]))
  }

  /** `TokenAt` finds a match exactly when the regular expression has one at
      `i`, and then it is the longest one, as greedy matching chooses. */
  lemma TokenAtIsRegexMatch(s: string, i: nat)
    ensures TokenAt(s, i).Some? <==> exists c, e :: TokenShape(s, i, c, e)
    ensures TokenAt(s, i).Some? ==>
      && TokenShape(s, i, RunEnd(s, i, IsWordChar), TokenAt(s, i).value)
      && forall c, e :: TokenShape(s, i, c, e) ==> c == RunEnd(s, i, IsWordChar) && e <= TokenAt(s, i).value
  {
    if i < |s| {
      var c := RunEnd(s, i, IsWordChar);
      forall c', e' | TokenShape(s, i, c', e')
        ensures c' == c && TokenAt(s, i).Some? && e' <= TokenAt(s, i).value
      {
      }
      if TokenAt(s, i).Some? {
        assert TokenShape(s, i, c, TokenAt(s, i).value);
      }
    }
  }

  const TokenMatcher: Scanning.Matcher := (s: string, i: nat) => TokenAt(s, i)

  lemma TokenMatcherValid()
    ensures Scanning.ValidMatcher(TokenMatcher)
  {
  }

  /** The spans `re.findall("(\w+):(\S+)", text)` reports, left to right. */
  function Tokens(text: string): (spans: seq<Scanning.Span>)
    ensures Scanning.IsLeftmostParse(TokenMatcher, text, 0, spans)
  {
    TokenMatcherValid();
    Scanning.Scan(TokenMatcher, text, 0)
  }

  /** The two groups of the token matched at `span`. */
  function TokenPair(text: string, span: Scanning.Span): (kv: (string, string))
    requires TokenAt(text, span.start) == Some(span.end)
    ensures |kv.0| > 0 && |kv.1| > 0
    ensures text[span.start..span.end] == kv.0 + ":" + kv.1
  {
    var c := RunEnd(text, span.start, IsWordChar);
    assert text[span.start..span.end] == text[span.start..c] + ":" + text[c + 1..span.end];
    (text[span.start..c], text[c + 1..span.end])
  }

  /** The groups of a token are the word before its colon and the run
      after it. */
  lemma PairAt(s: string, span: Scanning.Span, c: nat, key: string, value: string)
    requires TokenAt(s, span.start) == Some(span.end)
    requires RunEnd(s, span.start, IsWordChar) == c
    requires c + 1 <= span.end && s[span.start..c] == key && s[c + 1..span.end] == value
    ensures TokenPair(s, span) == (key, value)
  {
  }

  /** `re.findall("(\w+):(\S+)", text)`: the (key, value) groups in order. */
  function FindAll(text: string): (pairs: seq<(string, string)>)
    ensures |pairs| == |Tokens(text)|
    ensures forall k :: 0 <= k < |pairs| ==> pairs[k] == TokenPair(text, Tokens(text)[k])
  {
    var spans := Tokens(text);
    seq(|spans|, k requires 0 <= k < |spans| => TokenPair(text, spans[k]))
  }

  /** The index of the last pair whose lower-cased key is `key`. */
  function LastIndex(pairs: seq<(string, string)>, key: string): (r: Option<nat>)
    ensures r.Some? ==> r.value < |pairs| && Lower(pairs[r.value].0) == key
    ensures r.Some? ==> forall j :: r.value < j < |pairs| ==> Lower(pairs[j].0) != key
    ensures r.None? ==> forall j :: 0 <= j < |pairs| ==> Lower(pairs[j].0) != key
    decreases |pairs|
  {
    if pairs == [] then None
    else if Lower(pairs[|pairs| - 1].0) == key then Some(|pairs| - 1)
    else LastIndex(pairs[..|pairs| - 1], key)
  }

  /** `dict((k.lower(), v) for k, v in pairs)`: the keys are the lower-cased
      keys of the pairs, and each maps to the value of the last pair that
      has it. */
  function FlagMap(pairs: seq<(string, string)>): (flags: map<string, string>)
    ensures forall key :: key in flags <==> LastIndex(pairs, key).Some?
    ensures forall key :: key in flags ==> flags[key] == pairs[LastIndex(pairs, key).value].1
    decreases |pairs|
  {
    if pairs == [] then map[]
    else FlagMap(pairs[..|pairs| - 1])[Lower(pairs[|pairs| - 1].0) := pairs[|pairs| - 1].1]
  }

  /** The directive parse of a message text: the text with every token
      deleted (`re.sub`, no trimming afterwards) and the flag map. */
  function Parse(text: string): (r: (string, map<string, string>))
    ensures r.0 == Scanning.Gaps(text, 0, Tokens(text))
    ensures r.1 == FlagMap(FindAll(text))
  {
    TokenMatcherValid();
    Scanning.SubDeletesScannedSpans(TokenMatcher, text, 0);
    (Scanning.Sub(TokenMatcher, text, 0), FlagMap(FindAll(text)))
  }

  /** A text with no `key:value` token parses to no flags and itself. */
  lemma ParseWithoutTokens(text: string)
    requires Tokens(text) == []
    ensures Parse(text) == (text, map[])
  {
  }

  // ---------------------------------------------------------------------
  // The delay directive

  datatype DelayUnit = Seconds | Minutes | Hours

  function UnitSeconds(u: DelayUnit): nat
  {
    match u
    case Seconds => 1
    case Minutes => 60
    case Hours => 3600
  }

  /** The `timedelta` keyword `time_code_map` gives each unit. */
  function UnitName(u: DelayUnit): string
  {
    match u
    case Seconds => "seconds"
    case Minutes => "minutes"
    case Hours => "hours"
  }

  /** `time_code_map`: only lower-case s, m and h are time codes. */
  function TimeCode(c: char): Option<DelayUnit>
  {
    if c == 's' then Some(Seconds)
    else if c == 'm' then Some(Minutes)
    else if c == 'h' then Some(Hours)
    else None
  }

  /** The groups of `re.match("(\d+)(\w)", v)`. When the digit run is not
      followed by a word character the engine backtracks one digit, so the
      last digit becomes the unit ("123" gives ("12", '3')). */
  function DelayGroups(v: string): Option<(string, char)>
  {
    var d := RunEnd(v, 0, IsDigit);
    if d == 0 then None
    else if d < |v| && IsWordChar(v[d]) then Some((v[..d], v[d]))
    else if d >= 2 then Some((v[..d - 1], v[d - 1]))
    else None
  }

  /** `v` starts with `k` digits followed by a word character. */
  ghost predicate DelayShape(v: string, k: int)
  {
    1 <= k < |v| && AllDigits(v[..k]) && IsWordChar(v[k])
  }

  /** `DelayGroups` matches exactly when the regular expression can, and
      takes the longest digit group, as greedy matching with backtracking does. */
  lemma DelayGroupsIsRegexMatch(v: string)
    ensures DelayGroups(v).Some? <==> exists k :: DelayShape(v, k)
    ensures DelayGroups(v).Some? ==>
      var (g, u) := DelayGroups(v).value;
      && DelayShape(v, |g|) && g == v[..|g|] && u == v[|g|]
      && forall k :: DelayShape(v, k) ==> k <= |g|
  {
    var d := RunEnd(v, 0, IsDigit);
    forall k | DelayShape(v, k)
      ensures DelayGroups(v).Some? && k <= |DelayGroups(v).value.0|
    {
    }
    if DelayGroups(v).Some? {
      var g := DelayGroups(v).value.0;
      assert DelayShape(v, |g|);
    }
  }

  /** The delay a `delay` flag value asks for: a digit prefix read as a whole
      number and an accepted time code. */
  function DelayOf(v: string): (r: Option<(nat, DelayUnit)>)
  {
    match DelayGroups(v)
    case None => None
    case Some((g, u)) =>
      match TimeCode(u)
      case None => None
      case Some(unit) =>
        assert AllDigits(g);
        Some((DecimalValue(g), unit))
  }

  /** A delay is accepted iff the value begins with digits followed by one
      of s, m or h; the magnitude is the value of those digits. Anything
      else, including a bare number, is rejected. */
  lemma DelayAcceptance(v: string)
    ensures DelayOf(v).Some? <==> exists d :: 0 < d < |v| && AllDigits(v[..d]) && TimeCode(v[d]).Some?
    ensures forall d :: 0 < d < |v| && AllDigits(v[..d]) && TimeCode(v[d]).Some? ==>
      DelayOf(v) == Some((DecimalValue(v[..d]), TimeCode(v[d]).value))
  {
    var e := RunEnd(v, 0, IsDigit);
    forall d | 0 < d < |v| && AllDigits(v[..d]) && TimeCode(v[d]).Some?
      ensures e == d
    {
    }
    if DelayOf(v).Some? {
      assert TimeCode(v[e]).Some?;
    }
  }

  /** The timedelta constructor raises OverflowError beyond 999999999 days. */
  const MaxDeltaDays: nat := 999_999_999

  datatype Overflow = TimedeltaOverflow | DatetimeOverflow

  /** `str(float(n))` in Python 2: twelve significant digits, so whole
      numbers below 10^12 print as "n.0" and larger ones in exponent form. */
  function FloatText(n: nat): (r: string)
    ensures n < 1_000_000_000_000 ==> r == NatToString(n) + ".0"
  {
    if n < 1_000_000_000_000 then NatToString(n) + ".0" else ExponentText(n)
  }

  function Pow10(k: nat): (r: nat)
    ensures r >= 1
  {
    if k == 0 then 1 else 10 * Pow10(k - 1)
  }

  function DropTrailingZeros(s: string): string
  {
    if s != [] && s[|s| - 1] == '0' then DropTrailingZeros(s[..|s| - 1]) else s
  }

  /** `n / p` rounded half-to-even. */
  function RoundedQuotient(n: nat, p: nat): nat
    requires p >= 1
  {
    var q := n / p;
    var rem := n % p;
    if 2 * rem > p || (2 * rem == p && q % 2 == 1) then q + 1 else q
  }

  /** `'%.12g' % n` for n >= 10^12: the value rounded half-to-even to twelve
      significant digits, trailing zeros dropped, exponent written "e+XX". */
  function ExponentText(n: nat): string
  {
    var k := |NatToString(n)|;
    var rounded := RoundedQuotient(n, Pow10(if k >= 12 then k - 12 else 0));
    var carry := rounded == 1_000_000_000_000;
    var digits := NatToString(if carry then 100_000_000_000 else rounded);
    var frac := DropTrailingZeros(digits[1..]);
    var exponent := if carry then k else k - 1;
    [digits[0]] + (if frac == [] then "" else "." + frac) + "e+" + NatToString(exponent)
  }

  /** The `delay` step of `parse_email`. Without a `delay` flag nothing
      changes; a rejected value becomes "?" and keeps the time; an accepted
      one moves the time by n seconds, minutes or hours and is echoed as
      "<float(n)> <unit>"; a `timedelta` or `datetime` out of range raises. */
  function ApplyDelay(at: Instant, flags: map<string, string>): (r: Result<(Instant, map<string, string>), Overflow>)
    ensures "delay" !in flags ==> r == Ok((at, flags))
    ensures "delay" in flags && DelayOf(flags["delay"]).None? ==> r == Ok((at, flags["delay" := "?"]))
    ensures "delay" in flags && DelayOf(flags["delay"]).Some? ==>
      var (n, u) := DelayOf(flags["delay"]).value;
      && (r == Err(TimedeltaOverflow) <==> n * UnitSeconds(u) >= 86400 * (MaxDeltaDays + 1))
      && (r.Ok? <==> n * UnitSeconds(u) < 86400 * (MaxDeltaDays + 1) && at + Clock.Seconds(n * UnitSeconds(u)) <= MaxInstant)
      && (r.Ok? ==> r.value == (at + Clock.Seconds(n * UnitSeconds(u)), flags["delay" := FloatText(n) + " " + UnitName(u)]))
    ensures r.Ok? ==> r.value.1.Keys == flags.Keys
    ensures r.Ok? ==> forall key :: key in flags && key != "delay" ==> r.value.1[key] == flags[key]
  {
    if "delay" !in flags then Ok((at, flags))
    else match DelayOf(flags["delay"])
      case None => Ok((at, flags["delay" := "?"]))
      case Some((n, u)) =>
        var seconds := n * UnitSeconds(u);
        if seconds >= 86400 * (MaxDeltaDays + 1) then Err(TimedeltaOverflow)
        else if at + Clock.Seconds(seconds) > MaxInstant then Err(DatetimeOverflow)
        else Ok((at + Clock.Seconds(seconds), flags["delay" := FloatText(n) + " " + UnitName(u)]))
  }
}

=== FILE: email_feed.dfy ===
/** The mailbox feed thread (src/pipumpkin/emailfeed.py, class `EmailFeed`):
    each loop iteration mails out everything on its send queue, then, at most
    once per second, reads the unseen messages and queues their text for
    speaking. Network sessions are replaced by their results. */
module EmailFeed {
  import opened Wrappers
  import opened Clock
  import opened ReleaseQueue
  import opened Messages
  import Mime

  const HeartbeatSubject: string := "pipumpkin heartbeat"

  /** `imap_poll_delay`. */
  const ImapPollDelay: nat := Clock.Seconds(1)

  /** A `MIMEText` message put on the send queue. */
  datatype OutMail = OutMail(subject: string, sender: string, recipient: string, body: string)

  /** One `smtp.sendmail(from, to_list, message)` call. */
  datatype Envelope = Envelope(sender: string, recipients: seq<string>, mail: OutMail)

  /** The feed's state: its account, the time of the last IMAP search, the
      outbound send queue and the release queue it fills. */
  datatype Feed = Feed(user: string, lastImapSearch: Instant, sendQueue: seq<OutMail>, queue: seq<Scheduled>)

  /** `parse_email`: heartbeat mail is skipped before anything else; other
      mail is scheduled from its walked plain text. The text is unicode, so
      formatting the flag summary for the log (`"{0}={1}".format(k, v)`)
      raises `UnicodeEncodeError` when a final flag value is not ASCII,
      before the entry is queued. */
  function ParseEmail(msg: MailMessage, now: Instant, decode: Mime.Decoder): (r: ParseOutcome)
    ensures msg.subject == Some(HeartbeatSubject) ==> r == Skipped(HeartbeatMail)
    ensures msg.subject != Some(HeartbeatSubject) ==>
      var scheduled := Schedule(Mime.WalkPlainText(msg.body, decode), msg.date, now);
      if scheduled.Queued? && !AsciiFlags(scheduled.item.flags) then r == Raised(NonAsciiFlag) else r == scheduled
    ensures r.Queued? ==> AsciiFlags(r.item.flags)
  {
    if msg.subject == Some(HeartbeatSubject) then Skipped(HeartbeatMail)
    else
      var scheduled := Schedule(Mime.WalkPlainText(msg.body, decode), msg.date, now);
      if scheduled.Queued? && !AsciiFlags(scheduled.item.flags) then Raised(NonAsciiFlag) else scheduled
  }

  /** `parse_email` with the clock reading and decoder of one loop iteration. */
  function Parser(now: Instant, decode: Mime.Decoder): MailMessage -> ParseOutcome
  {
    (msg: MailMessage) => ParseEmail(msg, now, decode)
  }

  /** `send_heartbeat`: a mail from the user to the user with the heartbeat
      subject is appended to the send queue; nothing else changes. */
  function SendHeartbeat(f: Feed, contents: string): (r: Feed)
    ensures r.sendQueue == f.sendQueue + [OutMail(HeartbeatSubject, f.user, f.user, contents)]
    ensures r.user == f.user && r.lastImapSearch == f.lastImapSearch && r.queue == f.queue
  {
    f.(sendQueue := f.sendQueue + [OutMail(HeartbeatSubject, f.user, f.user, contents)])
  }

  /** How an outbound mail reads when it is fetched back from the mailbox:
      `MIMEText` makes one text/plain part in 7bit encoding. */
  function Delivered(m: OutMail, date: DateHeader): MailMessage
  {
    MailMessage(Some(m.subject), date, Mime.Leaf("text/plain", Some("7bit"), m.body))
  }

  /** A heartbeat that comes back through the mailbox is never queued for
      speaking, whatever its contents. */
  lemma HeartbeatIsSkipped(f: Feed, contents: string, date: DateHeader, now: Instant, decode: Mime.Decoder)
    ensures var hb := SendHeartbeat(f, contents).sendQueue[|f.sendQueue|];
      ParseEmail(Delivered(hb, date), now, decode) == Skipped(HeartbeatMail)
  {
  }

  /** Emptying the send queue: every pending mail, in FIFO order, is sent
      from the user to the user alone, in one SMTP session that is opened
      only when something is pending. */
  function DrainSendQueue(f: Feed): (r: (Feed, Option<seq<Envelope>>))
    ensures r.0 == f.(sendQueue := [])
    ensures r.1.Some? <==> f.sendQueue != []
    ensures r.1.Some? ==> |r.1.value| == |f.sendQueue|
    ensures r.1.Some? ==> forall k :: 0 <= k < |f.sendQueue| ==>
      r.1.value[k] == Envelope(f.user, [f.user], f.sendQueue[k])
  {
    var session := seq(|f.sendQueue|, k requires 0 <= k < |f.sendQueue| => Envelope(f.user, [f.user], f.sendQueue[k]));
    (f.(sendQueue := []), if f.sendQueue == [] then None else Some(session))
  }

  /** A heartbeat mail in a batch is never put on the release queue. */
  lemma HeartbeatsNeverQueued(queue: seq<Scheduled>, fetches: seq<FetchResult>, now: Instant, decode: Mime.Decoder)
    requires Sorted(queue)
    requires forall f :: f in fetches && f.Fetched? ==> f.message.subject == Some(HeartbeatSubject)
    ensures ProcessFetches(queue, fetches, Parser(now, decode)).queue == queue
  {
    var parse := Parser(now, decode);
    forall f | f in fetches && f.Fetched?
      ensures parse(f.message) == Skipped(HeartbeatMail)
    {
    }
  }

  /** How the SMTP session of one iteration goes: it works, or a
      `socket.error` or `SMTPException` is raised after `sent` mails went
      out (while connecting, sending or quitting). */
  datatype SmtpOutcome = SmtpOk | SmtpRaisesAfter(sent: nat)

  /** What one `loop()` call did besides changing the feed: the SMTP
      session it opened (the mails sent in it), whether a connection error
      ended it (`run()` catches it and reconnects), whether it searched the
      mailbox, and the exception from `parse_email` that ended it. */
  datatype LoopResult = LoopResult(
    feed: Feed,
    smtpSession: Option<seq<Envelope>>,
    connectionLost: bool,
    searched: bool,
    crash: Option<ParseError>)

  /** One iteration of the feed thread. The send queue is always emptied,
      even when sending fails, so unsent mail is lost; a connection error
      ends the iteration before the rate gate. */
  function Loop(f: Feed, now: Instant, smtp: SmtpOutcome, search: SearchResult, decode: Mime.Decoder): (r: LoopResult)
    requires Sorted(f.queue)
    ensures Sorted(r.feed.queue)
    ensures r.feed.user == f.user && r.feed.sendQueue == []
    ensures r.smtpSession.Some? <==> f.sendQueue != []
    ensures r.connectionLost <==> f.sendQueue != [] && smtp.SmtpRaisesAfter?
    ensures !r.connectionLost ==> r.smtpSession == DrainSendQueue(f).1
    ensures r.connectionLost ==>
      && r.smtpSession.value <= DrainSendQueue(f).1.value
      && |r.smtpSession.value| == if smtp.sent < |f.sendQueue| then smtp.sent else |f.sendQueue|
    ensures r.searched <==> !r.connectionLost && ElapsedMoreThan(now, f.lastImapSearch, ImapPollDelay)
    ensures r.feed.lastImapSearch == (if r.searched then now else f.lastImapSearch)
    ensures !r.searched || search.SearchFailed? ==> r.feed.queue == f.queue && r.crash.None?
    ensures r.searched && search.SearchOk? ==>
      var batch := ProcessFetches(f.queue, search.fetches, Parser(now, decode));
      r.feed.queue == batch.queue && r.crash == batch.crash
  {
    var (drained, session) := DrainSendQueue(f);
    if session.Some? && smtp.SmtpRaisesAfter? then
      var sent := if smtp.sent < |f.sendQueue| then smtp.sent else |f.sendQueue|;
      LoopResult(drained, Some(session.value[..sent]), true, false, None)
    else if !ElapsedMoreThan(now, f.lastImapSearch, ImapPollDelay) then
      LoopResult(drained, session, false, false, None)
    else
      var searched := drained.(lastImapSearch := now);
      match search
      case SearchFailed => LoopResult(searched, session, false, true, None)
      case SearchOk(fetches) =>
        var batch := ProcessFetches(f.queue, fetches, Parser(now, decode));
        LoopResult(searched.(queue := batch.queue), session, false, true, batch.crash)
  }

  /** The rate gate spaces searches out: after a search, no iteration within
      `imap_poll_delay` of it searches again, whatever happens meanwhile. */
  lemma SearchesAreSpacedOut(f: Feed, now: Instant, smtp: SmtpOutcome, search: SearchResult, decode: Mime.Decoder,
                             later: Instant, smtp': SmtpOutcome, search': SearchResult, decode': Mime.Decoder)
    requires Sorted(f.queue)
    requires Loop(f, now, smtp, search, decode).searched
    requires later - now <= ImapPollDelay
    ensures !Loop(Loop(f, now, smtp, search, decode).feed, later, smtp', search', decode').searched
  {
  }
}

=== FILE: feed_monitor.dfy ===
/** The Twitter monitor thread (src/pipumpkin/feedmonitor.py, class
    `TweeterFeedMonitor`): turns new mentions into sentences to speak and
    acknowledgements to post, and posts queued replies. The thread, its
    sleeps and the `stop` flag are replaced by single steps. */
module FeedMonitor {
  import opened Wrappers
  import opened Clock
  import opened Tweeter
  import Text
  import Scanning

  /** `mention_check_delay`. */
  const MentionCheckDelay: nat := Clock.Seconds(10)

  const Acknowledged: string := "Acknowledged."

  /** The monitor's state: the wrapper it talks through, the cursor
      `last_mention_id`, `last_mention_check_time`, and the two queues it
      feeds, oldest entry first. */
  datatype Monitor = Monitor(
    feed: Feed,
    lastMentionId: Option<int>,
    lastCheck: Instant,
    sentences: seq<(Instant, string)>,
    replies: seq<(int, string)>)

  // ---------------------------------------------------------------------
  // Removing the mention
  // ---------------------------------------------------------------------

  /** `re.escape("@" + name)` under `re.IGNORECASE`: a literal match, one
      character at a time up to ASCII case. */
  function MentionMatcher(name: string): Scanning.Matcher
  {
    (s: string, i: nat) =>
      var n := |name| + 1;
      if i + n <= |s| && Text.Lower(s[i..i + n]) == Text.Lower("@" + name) then Some(i + n) else None
  }

  lemma MentionMatcherValid(name: string)
    ensures Scanning.ValidMatcher(MentionMatcher(name))
  {
  }

  /** The occurrences `re.sub` deletes: the leftmost non-overlapping
      case-insensitive matches of "@name". */
  function Mentions(text: string, name: string): (spans: seq<Scanning.Span>)
    ensures Scanning.IsLeftmostParse(MentionMatcher(name), text, 0, spans)
  {
    MentionMatcherValid(name);
    Scanning.Scan(MentionMatcher(name), text, 0)
  }

  /** The text `check_for_mentions` queues for a tweet: the tweet with those
      occurrences deleted, then surrounding white space stripped. */
  function StripMention(text: string, name: string): (r: string)
    ensures r == Text.Strip(Scanning.Gaps(text, 0, Mentions(text, name)))
  {
    MentionMatcherValid(name);
    Scanning.SubDeletesScannedSpans(MentionMatcher(name), text, 0);
    Text.Strip(Scanning.Sub(MentionMatcher(name), text, 0))
  }

  /** A tweet that does not mention the account is only stripped. */
  lemma StripMentionWithoutMention(text: string, name: string)
    requires forall p :: 0 <= p < |text| ==> MentionMatcher(name)(text, p).None?
    ensures StripMention(text, name) == Text.Strip(text)
  {
    MentionMatcherValid(name);
    Scanning.SubWithoutMatches(MentionMatcher(name), text);
  }

  lemma MentionExampleMatch()
    ensures MentionMatcher("pipumpkin")("@PiPumpkin hello", 0) == Some(10)
  {
    var text := "@PiPumpkin hello";
    assert text[0..10] == "@PiPumpkin";
    var lo := Text.Lower("@PiPumpkin");
    assert lo == "@pipumpkin" by {
      forall k | 0 <= k < 10 ensures lo[k] == "@pipumpkin"[k] {
      }
    }
    assert Text.Lower("@pipumpkin") == "@pipumpkin";
    assert "@" + "pipumpkin" == "@pipumpkin";
    assert text[0..0 + (|"pipumpkin"| + 1)] == "@PiPumpkin";
  }

  lemma MentionExampleSpans()
    ensures Mentions("@PiPumpkin hello", "pipumpkin") == [Scanning.Span(0, 10)]
  {
    var text := "@PiPumpkin hello";
    var m := MentionMatcher("pipumpkin");
    MentionExampleMatch();
    var spans := [Scanning.Span(0, 10)];
    assert forall p :: 0 <= p < 10 ==> Scanning.Covered(spans, p) by {
      forall p | 0 <= p < 10 ensures Scanning.Covered(spans, p) {
        assert spans[0].start <= p < spans[0].end;
      }
    }
    assert Scanning.IsLeftmostParse(m, text, 0, spans);
    Scanning.ParseUnique(m, text, 0, spans, Mentions(text, "pipumpkin"));
  }

  /** The mention is found whatever its case: "@PiPumpkin hello" to the
      account "pipumpkin" queues "hello". */
  lemma StripMentionIgnoresCase()
    ensures StripMention("@PiPumpkin hello", "pipumpkin") == "hello"
  {
    var text := "@PiPumpkin hello";
    MentionExampleSpans();
    var gaps := Scanning.Gaps(text, 0, [Scanning.Span(0, 10)]);
    assert gaps == " hello";
    assert Text.LeadingSpaces(gaps) == 1;
    assert Text.Strip(gaps) == "hello";
  }

  // ---------------------------------------------------------------------
  // check_for_mentions
  // ---------------------------------------------------------------------

  /** A batch as `check_for_mentions` walks it: `reversed`, so oldest first
      for a newest-first timeline, each element mapped through `f`. */
  function OldestFirst<A, B>(s: seq<A>, f: A -> B): (r: seq<B>)
    ensures |r| == |s|
    ensures forall k :: 0 <= k < |r| ==> r[k] == f(s[|s| - 1 - k])
  {
    if s == [] then []
    else
      var rest := OldestFirst(s[1..], f);
      var r := rest + [f(s[0])];
      assert forall k :: 0 <= k < |rest| ==> r[k] == rest[k] && s[1..][|rest| - 1 - k] == s[|s| - 1 - k];
      r
  }

  /** What one batch of mentions adds to the sentence queue: oldest first,
      each tweet's time with its text, the mention removed. */
  function MentionSentences(mentions: seq<Tweet>, name: string): (r: seq<(Instant, string)>)
    ensures |r| == |mentions|
    ensures forall k :: 0 <= k < |r| ==>
      r[k] == (mentions[|mentions| - 1 - k].createdAt, StripMention(mentions[|mentions| - 1 - k].text, name))
  {
    OldestFirst(mentions, (t: Tweet) => (t.createdAt, StripMention(t.text, name)))
  }

  /** What one batch of mentions adds to the reply queue: oldest first, an
      acknowledgement for each tweet. */
  function Acknowledgements(mentions: seq<Tweet>): (r: seq<(int, string)>)
    ensures |r| == |mentions|
    ensures forall k :: 0 <= k < |r| ==> r[k] == (mentions[|mentions| - 1 - k].id, Acknowledged)
  {
    OldestFirst(mentions, (t: Tweet) => (t.id, Acknowledged))
  }

  /** The number of leading tweets whose text is ASCII. */
  function AsciiPrefix(ts: seq<Tweet>): (n: nat)
    ensures n <= |ts|
    ensures forall k :: 0 <= k < n ==> Text.AsciiText(ts[k].text)
    ensures n < |ts| ==> !Text.AsciiText(ts[n].text)
  {
    if ts == [] || !Text.AsciiText(ts[0].text) then 0 else 1 + AsciiPrefix(ts[1..])
  }

  /** How many mentions, oldest first, `check_for_mentions` gets through.
      Logging a tweet (`"Tweet: {0.text}".format(tweet)`) formats its
      unicode text into a byte string, which raises `UnicodeEncodeError` at
      the first text that is not ASCII. (The second log line formats the
      stripped text, which is ASCII whenever the tweet's is.) */
  function AsciiRun(mentions: seq<Tweet>): nat
  {
    AsciiPrefix(OldestFirst(mentions, (t: Tweet) => t))
  }

  /** The outcome of `check_for_mentions`: the state afterwards, and whether
      the screen-name lookup raised out of it. */
  datatype Check = Check(monitor: Monitor, crashed: bool)

  /** `check_for_mentions`. A `FeedError` or an empty answer changes
      nothing. Otherwise the cursor moves to the first (newest) tweet.
      Unless the screen-name lookup raises, the tweets are then handled
      oldest first, each giving one sentence and one acknowledgement, up to
      the first whose text is not ASCII: logging it raises, and it and all
      newer tweets are lost. */
  function CheckForMentions(m: Monitor, timeline: Timeline, me: Result<string, TweepError>): (r: Check)
    ensures var got := GetMentionsAfter(m.lastMentionId, timeline);
      got.Err? || got.value == [] ==> r == Check(m, false)
    ensures var got := GetMentionsAfter(m.lastMentionId, timeline);
      got.Ok? && got.value != [] ==> r.monitor.lastMentionId == Some(got.value[0].id)
    ensures r.monitor.lastCheck == m.lastCheck
    ensures GetScreenName(m.feed, me).name.Err? ==> r.monitor == m.(lastMentionId := r.monitor.lastMentionId)
    ensures var got := GetMentionsAfter(m.lastMentionId, timeline);
      got.Ok? && got.value != [] && GetScreenName(m.feed, me).name.Ok? ==>
        var n := AsciiRun(got.value);
        && r.monitor.feed == GetScreenName(m.feed, me).feed
        && r.monitor.sentences == m.sentences + MentionSentences(got.value, GetScreenName(m.feed, me).name.value)[..n]
        && r.monitor.replies == m.replies + Acknowledgements(got.value)[..n]
    ensures r.crashed <==> var got := GetMentionsAfter(m.lastMentionId, timeline);
      got.Ok? && got.value != [] && (GetScreenName(m.feed, me).name.Err? || AsciiRun(got.value) < |got.value|)
  {
    match GetMentionsAfter(m.lastMentionId, timeline)
    case Err(_) => Check(m, false)
    case Ok(ms) =>
      if ms == [] then Check(m, false)
      else
        var moved := m.(lastMentionId := Some(ms[0].id));
        var lookup := GetScreenName(m.feed, me);
        match lookup.name
        case Err(_) => Check(moved, true)
        case Ok(name) =>
          var n := AsciiRun(ms);
          Check(moved.(feed := lookup.feed,
                       sentences := m.sentences + MentionSentences(ms, name)[..n],
                       replies := m.replies + Acknowledgements(ms)[..n]), n < |ms|)
  }

  /** With every tweet in ASCII, each mention yields exactly one sentence
      and one acknowledgement: both queues grow by the number of mentions. */
  lemma AsciiMentionsAllQueued(m: Monitor, timeline: Timeline, me: Result<string, TweepError>)
    requires GetMentionsAfter(m.lastMentionId, timeline).Ok?
    requires GetScreenName(m.feed, me).name.Ok?
    requires forall t :: t in GetMentionsAfter(m.lastMentionId, timeline).value ==> Text.AsciiText(t.text)
    ensures var r := CheckForMentions(m, timeline, me);
      && !r.crashed
      && |r.monitor.sentences| == |m.sentences| + |GetMentionsAfter(m.lastMentionId, timeline).value|
      && |r.monitor.replies| == |m.replies| + |GetMentionsAfter(m.lastMentionId, timeline).value|
  {
    var ms := GetMentionsAfter(m.lastMentionId, timeline).value;
    var oldest := OldestFirst(ms, (t: Tweet) => t);
    forall k | 0 <= k < |oldest|
      ensures Text.AsciiText(oldest[k].text)
    {
      assert ms[|ms| - 1 - k] in ms;
    }
  }

  /** A mention whose text is not ASCII makes the check raise, once the
      screen name is known. */
  lemma NonAsciiMentionCrashes(m: Monitor, timeline: Timeline, me: Result<string, TweepError>, t: Tweet)
    requires GetMentionsAfter(m.lastMentionId, timeline).Ok?
    requires t in GetMentionsAfter(m.lastMentionId, timeline).value && !Text.AsciiText(t.text)
    ensures CheckForMentions(m, timeline, me).crashed
  {
    var ms := GetMentionsAfter(m.lastMentionId, timeline).value;
    var oldest := OldestFirst(ms, (t: Tweet) => t);
    var i :| 0 <= i < |ms| && ms[i] == t;
    assert oldest[|ms| - 1 - i] == t;
  }

  /** When the timeline lists tweets newest first (ids strictly
      decreasing), the acknowledgements are queued in increasing id order,
      so replies go out in the order the mentions were made. */
  lemma AcknowledgementsOldestFirst(mentions: seq<Tweet>)
    requires forall i, j :: 0 <= i < j < |mentions| ==> mentions[i].id > mentions[j].id
    ensures forall i, j :: 0 <= i < j < |mentions| ==> Acknowledgements(mentions)[i].0 < Acknowledgements(mentions)[j].0
  {
  }

  // ---------------------------------------------------------------------
  // check_for_replies and loop
  // ---------------------------------------------------------------------

  /** `check_for_replies`: the oldest queued reply, if any, is taken off the
      queue and posted with `post_reply`. */
  function CheckForReplies(m: Monitor, me: Result<string, TweepError>, updateRaises: bool)
    : (r: (Monitor, Option<ReplyOutcome>))
    ensures r.1.None? <==> m.replies == []
    ensures r.1.None? ==> r.0 == m
    ensures r.1.Some? ==> r.0.replies == m.replies[1..] && [m.replies[0]] + r.0.replies == m.replies
    ensures r.1.Some? ==> (r.0.feed, r.1.value) == PostReply(m.feed, m.replies[0].0, m.replies[0].1, me, updateRaises)
    ensures r.0.sentences == m.sentences && r.0.lastMentionId == m.lastMentionId && r.0.lastCheck == m.lastCheck
  {
    if m.replies == [] then (m, None)
    else
      var (feed, outcome) := PostReply(m.feed, m.replies[0].0, m.replies[0].1, me, updateRaises);
      (m.(feed := feed, replies := m.replies[1..]), Some(outcome))
  }

  /** One `loop()` iteration: whether mentions were checked, the state
      afterwards, the reply outcome, and whether an exception escaped. */
  datatype Step = Step(monitor: Monitor, checked: bool, reply: Option<ReplyOutcome>, crashed: bool)

  /** `loop()` as written: mentions are checked when strictly more than ten
      seconds have passed since `last_mention_check_time`, which it never
      updates; unless that check raised, the reply queue is looked at every
      time, and a raising screen-name lookup in the reply escapes too. */
  function LoopAsWritten(m: Monitor, now: Instant, timeline: Timeline, me: Result<string, TweepError>, updateRaises: bool)
    : (r: Step)
    ensures r.checked <==> ElapsedMoreThan(now, m.lastCheck, MentionCheckDelay)
    ensures r.monitor.lastCheck == m.lastCheck
    ensures var mentioned := if r.checked then CheckForMentions(m, timeline, me) else Check(m, false);
      && (mentioned.crashed ==> r == Step(mentioned.monitor, true, None, true))
      && (!mentioned.crashed ==>
            && (r.monitor, r.reply) == CheckForReplies(mentioned.monitor, me, updateRaises)
            && (r.crashed <==> r.reply == Some(ReplyRaised)))
  {
    var check := if ElapsedMoreThan(now, m.lastCheck, MentionCheckDelay) then CheckForMentions(m, timeline, me) else Check(m, false);
    if check.crashed then Step(check.monitor, true, None, true)
    else
      var (after, reply) := CheckForReplies(check.monitor, me, updateRaises);
      Step(after, ElapsedMoreThan(now, m.lastCheck, MentionCheckDelay), reply, reply == Some(ReplyRaised))
  }

  /** As written, once ten seconds have passed after start-up, every later
      iteration calls the timeline API: the rate limit never closes again. */
  lemma GateNeverClosesAsWritten(m: Monitor, now: Instant, later: Instant, timeline: Timeline, me: Result<string, TweepError>, updateRaises: bool,
                                 timeline': Timeline, me': Result<string, TweepError>, updateRaises': bool)
    requires ElapsedMoreThan(now, m.lastCheck, MentionCheckDelay) && now <= later
    ensures LoopAsWritten(LoopAsWritten(m, now, timeline, me, updateRaises).monitor, later, timeline', me', updateRaises').checked
  {
  }

  /** `loop()` with the check time refreshed on every check, as the rate
      limit intends. */
  function Loop(m: Monitor, now: Instant, timeline: Timeline, me: Result<string, TweepError>, updateRaises: bool) : (r: Step)
    ensures r.checked <==> ElapsedMoreThan(now, m.lastCheck, MentionCheckDelay)
    ensures r.monitor.lastCheck == if r.checked then now else m.lastCheck
    ensures r.monitor == LoopAsWritten(m, now, timeline, me, updateRaises).monitor.(lastCheck := r.monitor.lastCheck)
    ensures r.reply == LoopAsWritten(m, now, timeline, me, updateRaises).reply
    ensures r.crashed == LoopAsWritten(m, now, timeline, me, updateRaises).crashed
  {
    var step := LoopAsWritten(m, now, timeline, me, updateRaises);
    if step.checked then step.(monitor := step.monitor.(lastCheck := now)) else step
  }

  /** With the refresh, two mention checks are always more than ten seconds
      apart. */
  lemma ChecksAreSpacedOut(m: Monitor, now: Instant, later: Instant, timeline: Timeline, me: Result<string, TweepError>, updateRaises: bool,
                           timeline': Timeline, me': Result<string, TweepError>, updateRaises': bool)
    requires Loop(m, now, timeline, me, updateRaises).checked
    requires later - now <= MentionCheckDelay
    ensures !Loop(Loop(m, now, timeline, me, updateRaises).monitor, later, timeline', me', updateRaises').checked
  {
  }

  // ---------------------------------------------------------------------
  // Start-up
  // ---------------------------------------------------------------------

  /** The start-up retry loop: the first of successive
      `get_latest_mention_id` calls that does not raise `FeedError`, given
      by its position (the number of ten-second sleeps before it) and the id
      it returned. */
  function FirstLatestId(attempts: seq<Timeline>): (r: Option<(nat, Option<int>)>)
    ensures r.None? <==> forall k :: 0 <= k < |attempts| ==> GetLatestMentionId(attempts[k]).Err?
    ensures r.Some? ==> r.value.0 < |attempts| && GetLatestMentionId(attempts[r.value.0]) == Ok(r.value.1)
    ensures r.Some? ==> forall k :: 0 <= k < r.value.0 ==> GetLatestMentionId(attempts[k]).Err?
  {
    if attempts == [] then None
    else match GetLatestMentionId(attempts[0])
      case Ok(id) => Some((0, id))
      case Err(_) =>
        match FirstLatestId(attempts[1..])
        case None => None
        case Some((k, id)) => Some((k + 1, id))
  }

  datatype RunOutcome =
    | Retrying(sleeps: nat)                 // every attempt so far raised FeedError
    | DiedOfNameError(sleeps: nat)          // start-up done, then the thread died
    | Listening(sleeps: nat, monitor: Monitor)

  /** `run()` as written: after start-up succeeds the thread logs through an
      undefined global `log`, dies of `NameError`, and never loops. */
  function RunAsWritten(m: Monitor, now: Instant, attempts: seq<Timeline>): (r: RunOutcome)
    ensures !r.Listening?
    ensures r.DiedOfNameError? <==> exists k :: 0 <= k < |attempts| && GetLatestMentionId(attempts[k]).Ok?
  {
    match FirstLatestId(attempts)
    case None => Retrying(|attempts|)
    case Some((k, _)) => DiedOfNameError(k)
  }

  /** `run()` logging through the monitor's own logger: it listens from the
      first successful attempt on, with the cursor that attempt returned and
      the check time taken at start-up. */
  function Run(m: Monitor, now: Instant, attempts: seq<Timeline>): (r: RunOutcome)
    ensures r.Listening? <==> exists k :: 0 <= k < |attempts| && GetLatestMentionId(attempts[k]).Ok?
    ensures r.Listening? ==> r.sleeps < |attempts| && r.monitor.lastCheck == now
    ensures r.Listening? ==> GetLatestMentionId(attempts[r.sleeps]) == Ok(r.monitor.lastMentionId)
    ensures r.Listening? ==> forall k :: 0 <= k < r.sleeps ==> GetLatestMentionId(attempts[k]).Err?
    ensures r.Listening? ==> r.monitor == m.(lastMentionId := r.monitor.lastMentionId, lastCheck := now)
    ensures r.Retrying? ==> r.sleeps == |attempts|
  {
    match FirstLatestId(attempts)
    case None => Retrying(|attempts|)
    case Some((k, id)) => Listening(k, m.(lastMentionId := id, lastCheck := now))
  }
}

=== FILE: imap_monitor.dfy ===
/** The IMAP monitor thread (src/pipumpkin/imapmonitor.py, class
    `IMAPMonitor`): reads unseen messages, extracts their plain text
    recursively and queues it, then waits before the next search. */
module ImapMonitor {
  import opened Wrappers
  import opened Clock
  import opened ReleaseQueue
  import opened Messages
  import Mime
  import Directives
  import Scanning
  import EmailFeed

  /** `poll_delay`, slept after a fully handled, non-empty batch. */
  const PollDelay: nat := Clock.Seconds(2)

  /** `parse_email` as written: `map(str.lower, re.findall(...))` applies
      `str.lower` to each (key, value) tuple, which raises TypeError as soon
      as the text holds one token, so only token-free text is ever queued,
      with no flags. */
  function ParseEmailAsWritten(msg: MailMessage, now: Instant, base64Decode: string -> string): (r: ParseOutcome)
    ensures var text := Mime.RecursivePlainText(msg.body, base64Decode);
      text != [] && BaseTime(msg.date, now).Ok? && Directives.Tokens(text) != [] ==> r == Raised(LowerOnTuple)
    ensures r.Queued? ==> r.item.text == Mime.RecursivePlainText(msg.body, base64Decode) && r.item.flags == map[]
  {
    var text := Mime.RecursivePlainText(msg.body, base64Decode);
    if text == [] then Skipped(EmptyText)
    else match BaseTime(msg.date, now)
      case Err(e) => Raised(e)
      case Ok(at) =>
        if Directives.Tokens(text) != [] then Raised(LowerOnTuple)
        else
          Directives.ParseWithoutTokens(text);
          Queued(Scheduled(at, Directives.Parse(text).0, map[]))
  }

  /** A one-part message whose text is "hi rate:100". */
  function RateMessage(): MailMessage
  {
    MailMessage(None, NoDate, Mime.Leaf("text/plain", None, "hi rate:100"))
  }

  /** "hi rate:100", described by its pieces. */
  predicate IsRateText(s: string)
  {
    |s| == 11 && s[..3] == "hi " && s[3..] == "rate:100"
  }

  /** The text of the example message is its payload: there is nothing to
      strip. */
  lemma RateMessageText(base64Decode: string -> string)
    ensures IsRateText(Mime.RecursivePlainText(RateMessage().body, base64Decode))
  {
    assert Text.LeadingSpaces("hi rate:100") == 0;
  }

  /** `findall` sees exactly one token in "hi rate:100", spanning
      "rate:100", with the groups "rate" and "100". */
  lemma RateMessageTokens(s: string)
    requires IsRateText(s)
    ensures Directives.TokenAt(s, 3) == Some(11)
    ensures Directives.Tokens(s) == [Scanning.Span(3, 11)]
  {
    var spans := [Scanning.Span(3, 11)];
    Directives.RunEndIs(s, 0, 2, Text.IsWordChar);
    Directives.RunEndIs(s, 1, 2, Text.IsWordChar);
    Directives.RunEndIs(s, 2, 2, Text.IsWordChar);
    Directives.RunEndIs(s, 3, 7, Text.IsWordChar);
    Directives.RunEndIs(s, 8, 11, Directives.NotSpace);
    assert Directives.TokenMatcher(s, 3) == Some(11);
    assert forall p :: 0 <= p < 3 ==> Directives.TokenMatcher(s, p).None?;
    forall p | 3 <= p < 11
      ensures Scanning.Covered(spans, p)
    {
      assert spans[0].start <= p < spans[0].end;
    }
    assert Scanning.IsLeftmostParse(Directives.TokenMatcher, s, 0, spans);
    Scanning.ParseUnique(Directives.TokenMatcher, s, 0, spans, Directives.Tokens(s));
  }

  lemma RateMessagePairs(s: string)
    requires IsRateText(s)
    ensures Directives.FindAll(s) == [("rate", "100")]
  {
    RateMessageTokens(s);
    Directives.RunEndIs(s, 3, 7, Text.IsWordChar);
    assert |s| == 11;
    assert s[3..][..4] == s[3..7];
    assert s[3..][5..] == s[8..11];
    Directives.PairAt(s, Scanning.Span(3, 11), 7, "rate", "100");
    var pairs := Directives.FindAll(s);
    assert pairs[0] == ("rate", "100");
  }

  /** The mailbox feed's rules read "hi rate:100" as the text "hi " with the
      single flag rate=100. */
  lemma RateMessageParse(s: string)
    requires IsRateText(s)
    ensures Directives.Parse(s) == ("hi ", map["rate" := "100"])
  {
    RateMessageTokens(s);
    RateMessagePairs(s);
    var pairs := [("rate", "100")];
    assert Text.Lower("rate") == "rate";
    assert pairs[..0] == [];
    assert Directives.FlagMap(pairs) == map["rate" := "100"];
    assert Scanning.Gaps(s, 11, []) == [];
    assert Scanning.Gaps(s, 0, [Scanning.Span(3, 11)]) == s[..3];
  }

  /** The as-written parser raises on an ordinary directive, where the
      mailbox feed's rules queue "hi " with the flag rate=100. */
  lemma AsWrittenRaisesOnDirective(now: Instant, base64Decode: string -> string)
    ensures ParseEmailAsWritten(RateMessage(), now, base64Decode) == Raised(LowerOnTuple)
    ensures ParseEmail(RateMessage(), now, base64Decode) == Queued(Scheduled(now, "hi ", map["rate" := "100"]))
  {
    RateMessageRaises(now, base64Decode);
    RateMessageQueued(now, base64Decode);
  }

  lemma RateMessageRaises(now: Instant, base64Decode: string -> string)
    ensures ParseEmailAsWritten(RateMessage(), now, base64Decode) == Raised(LowerOnTuple)
  {
    RateMessageText(base64Decode);
    RateMessageTokens(Mime.RecursivePlainText(RateMessage().body, base64Decode));
  }

  lemma RateMessageQueued(now: Instant, base64Decode: string -> string)
    ensures ParseEmail(RateMessage(), now, base64Decode) == Queued(Scheduled(now, "hi ", map["rate" := "100"]))
  {
    RateMessageText(base64Decode);
    RateMessageParse(Mime.RecursivePlainText(RateMessage().body, base64Decode));
    assert "delay" !in map["rate" := "100"];
  }

  /** `parse_email` with the keys lower-cased one by one, as the mailbox feed
      does: the same scheduling rules applied to the recursively extracted
      text. */
  function ParseEmail(msg: MailMessage, now: Instant, base64Decode: string -> string): (r: ParseOutcome)
    ensures Mime.RecursivePlainText(msg.body, base64Decode) == [] ==> r == Skipped(EmptyText)
    ensures r.Queued? ==> r.item.text == Scanning.Gaps(Mime.RecursivePlainText(msg.body, base64Decode), 0,
                                                      Directives.Tokens(Mime.RecursivePlainText(msg.body, base64Decode)))
  {
    Schedule(Mime.RecursivePlainText(msg.body, base64Decode), msg.date, now)
  }

  /** Apart from the heartbeat filter, which this reader lacks, the monitor
      treats a message exactly as the mailbox feed does with base64-aware
      decoding: same text, same delay rules, same "?" sentinel. The one
      difference: the monitor's text is a byte string, so a flag value
      outside ASCII, on which the mailbox feed raises, is queued here. */
  lemma SameRulesAsMailboxFeed(msg: MailMessage, now: Instant, base64Decode: string -> string)
    requires msg.subject != Some(EmailFeed.HeartbeatSubject)
    ensures var own := ParseEmail(msg, now, base64Decode);
      var feed := EmailFeed.ParseEmail(msg, now, Mime.ImapDecoder(base64Decode));
      && (own.Queued? && !AsciiFlags(own.item.flags) ==> feed == Raised(NonAsciiFlag))
      && (!(own.Queued? && !AsciiFlags(own.item.flags)) ==> feed == own)
  {
    Mime.RecursiveEqualsWalk(msg.body, base64Decode);
  }

  /** Without any `key:value` token the as-written and the corrected parser
      agree: an empty flag map and the text unchanged. */
  lemma AgreeWithoutTokens(msg: MailMessage, now: Instant, base64Decode: string -> string)
    requires Directives.Tokens(Mime.RecursivePlainText(msg.body, base64Decode)) == []
    ensures ParseEmailAsWritten(msg, now, base64Decode) == ParseEmail(msg, now, base64Decode)
  {
    Directives.ParseWithoutTokens(Mime.RecursivePlainText(msg.body, base64Decode));
  }

  function ParserAsWritten(now: Instant, base64Decode: string -> string): MailMessage -> ParseOutcome
  {
    (msg: MailMessage) => ParseEmailAsWritten(msg, now, base64Decode)
  }

  function Parser(now: Instant, base64Decode: string -> string): MailMessage -> ParseOutcome
  {
    (msg: MailMessage) => ParseEmail(msg, now, base64Decode)
  }

  /** One `loop()` call: the release queue afterwards, the exception that
      ended it, and whether it slept `poll_delay` at the end. */
  datatype LoopResult = LoopResult(queue: seq<Scheduled>, crash: Option<ParseError>, slept: bool)

  /** One `loop()` call with a given `parse_email`. A failed search or an
      empty result returns at once; a failed fetch abandons the rest of the
      batch; only a batch handled to the end is followed by the
      `poll_delay` sleep, and then every entry its messages made is queued. */
  function LoopWith(queue: seq<Scheduled>, search: SearchResult, parse: MailMessage -> ParseOutcome): (r: LoopResult)
    requires Sorted(queue)
    ensures Sorted(r.queue)
    ensures search.SearchFailed? ==> r == LoopResult(queue, None, false)
    ensures r.slept <==> (search.SearchOk? && search.fetches != [] && forall f :: f in search.fetches ==> Continues(f, parse))
    ensures r.slept ==> r.crash.None? && multiset(r.queue) == multiset(queue) + multiset(QueuedItems(search.fetches, parse))
    ensures search.SearchOk? && search.fetches != [] ==> r.crash == CrashAt(search.fetches, parse)
    ensures search.SearchOk? && search.fetches != [] ==> r.queue == ProcessFetches(queue, search.fetches, parse).queue
    ensures search.SearchOk? ==>
      multiset(r.queue) == multiset(queue) + multiset(QueuedItems(search.fetches[..StopAt(search.fetches, parse)], parse))
  {
    match search
    case SearchFailed => LoopResult(queue, None, false)
    case SearchOk(fetches) =>
      if fetches == [] then LoopResult(queue, None, false)
      else
        var batch := ProcessFetches(queue, fetches, parse);
        BatchIsReference(queue, fetches, parse);
        assert batch.completed ==> fetches[..StopAt(fetches, parse)] == fetches;
        LoopResult(batch.queue, batch.crash, batch.completed)
  }

  /** `loop()` as written: it sleeps only after a batch in which no message
      with text and a readable date holds a `key:value` token, since any
      such token raises out of `parse_email` and ends the thread. */
  function LoopAsWritten(queue: seq<Scheduled>, search: SearchResult, now: Instant, base64Decode: string -> string): (r: LoopResult)
    requires Sorted(queue)
    ensures Sorted(r.queue)
    ensures r.slept ==> search.SearchOk? && forall f :: f in search.fetches ==>
      && f.Fetched?
      && var text := Mime.RecursivePlainText(f.message.body, base64Decode);
         text == [] || BaseTime(f.message.date, now).Err? || Directives.Tokens(text) == []
  {
    LoopWith(queue, search, ParserAsWritten(now, base64Decode))
  }

  /** `loop()` over the corrected `parse_email`: it sleeps exactly after a
      non-empty batch in which every fetch succeeded and nothing raised, and
      then every entry the batch made is on the queue. */
  function Loop(queue: seq<Scheduled>, search: SearchResult, now: Instant, base64Decode: string -> string): (r: LoopResult)
    requires Sorted(queue)
    ensures Sorted(r.queue)
    ensures search.SearchFailed? ==> r == LoopResult(queue, None, false)
    ensures r.slept <==> (search.SearchOk? && search.fetches != [] &&
      forall f :: f in search.fetches ==> f.Fetched? && !ParseEmail(f.message, now, base64Decode).Raised?)
    ensures r.slept ==>
      && r.crash.None?
      && multiset(r.queue) == multiset(queue) + multiset(QueuedItems(search.fetches, Parser(now, base64Decode)))
    ensures search.SearchOk? && search.fetches != [] ==>
      r.queue == ProcessFetches(queue, search.fetches, Parser(now, base64Decode)).queue
    ensures search.SearchOk? ==>
      var stop := StopAt(search.fetches, Parser(now, base64Decode));
      multiset(r.queue) == multiset(queue) + multiset(QueuedItems(search.fetches[..stop], Parser(now, base64Decode)))
  {
    LoopWith(queue, search, Parser(now, base64Decode))
  }

  /** A batch of one message whose parse raises ends with that exception,
      the queue untouched and no sleep. */
  lemma OneRaisingFetch(queue: seq<Scheduled>, msg: MailMessage, parse: MailMessage -> ParseOutcome)
    requires Sorted(queue) && parse(msg).Raised?
    ensures LoopWith(queue, SearchOk([Fetched(msg)]), parse) == LoopResult(queue, Some(parse(msg).error), false)
  {
    var fetches := [Fetched(msg)];
    assert StopAt(fetches, parse) == 0;
    BatchIsReference(queue, fetches, parse);
  }

  /** A batch of one message that is queued ends with its entry on the
      queue, and the loop sleeps. */
  lemma OneQueuedFetch(queue: seq<Scheduled>, msg: MailMessage, parse: MailMessage -> ParseOutcome)
    requires Sorted(queue) && parse(msg).Queued?
    ensures var r := LoopWith(queue, SearchOk([Fetched(msg)]), parse);
      r.slept && multiset(r.queue) == multiset(queue) + multiset{parse(msg).item}
  {
    var fetches := [Fetched(msg)];
    assert fetches[1..] == [];
    assert QueuedItems(fetches, parse) == [parse(msg).item];
  }

  /** One fetched mail "hi rate:100": the loop as written dies of TypeError
      without queueing anything or sleeping, while the corrected loop
      queues "hi " with rate=100 and sleeps. */
  lemma AsWrittenLoopDiesOnDirective(queue: seq<Scheduled>, now: Instant, base64Decode: string -> string)
    requires Sorted(queue)
    ensures LoopAsWritten(queue, SearchOk([Fetched(RateMessage())]), now, base64Decode) == LoopResult(queue, Some(LowerOnTuple), false)
    ensures var r := Loop(queue, SearchOk([Fetched(RateMessage())]), now, base64Decode);
      r.slept && multiset(r.queue) == multiset(queue) + multiset{Scheduled(now, "hi ", map["rate" := "100"])}
  {
    AsWrittenRaisesOnDirective(now, base64Decode);
    OneRaisingFetch(queue, RateMessage(), ParserAsWritten(now, base64Decode));
    OneQueuedFetch(queue, RateMessage(), Parser(now, base64Decode));
  }
}

=== FILE: messages.dfy ===
/** What a mailbox reader does with one fetched e-mail once its plain text
    is known: skip it if empty, take its time from the Date header or the
    clock, parse its directives and apply its delay
    (src/pipumpkin/emailfeed.py and src/pipumpkin/imapmonitor.py,
    `parse_email`). */
module Messages {
  import opened Wrappers
  import opened Clock
  import opened ReleaseQueue
  import Directives
  import Scanning
  import Mime
  import Text

  /** The Date header: absent, parsed by dateutil (the naive local time it
      denotes), or one dateutil cannot parse. */
  datatype DateHeader = NoDate | DateOf(at: Instant) | BadDate

  datatype MailMessage = MailMessage(subject: Option<string>, date: DateHeader, body: Mime.MimePart)

  datatype SkipReason = HeartbeatMail | EmptyText

  /** Exceptions `parse_email` lets escape. */
  datatype ParseError =
    | UnparseableDate                          // dateutil's ValueError
    | Overflowed(overflow: Directives.Overflow)  // OverflowError from timedelta or datetime
    | LowerOnTuple                             // TypeError from str.lower on a tuple
    | NonAsciiFlag                             // UnicodeEncodeError from formatting a flag value

  datatype ParseOutcome = Skipped(reason: SkipReason) | Queued(item: Scheduled) | Raised(error: ParseError)

  /** `scheduled_at` before any delay: the Date header if present, else now. */
  function BaseTime(date: DateHeader, now: Instant): (r: Result<Instant, ParseError>)
    ensures date.NoDate? ==> r == Ok(now)
    ensures date.DateOf? ==> r == Ok(date.at)
    ensures date.BadDate? ==> r == Err(UnparseableDate)
  {
    match date
    case NoDate => Ok(now)
    case DateOf(at) => Ok(at)
    case BadDate => Err(UnparseableDate)
  }

  /** The part of `parse_email` after the plain text is extracted. An empty
      text is skipped; otherwise the queued entry carries the text with its
      tokens deleted, and with no `delay` flag it is due at the Date header's
      time, or now when there is none. */
  function Schedule(text: string, date: DateHeader, now: Instant): (r: ParseOutcome)
    ensures r == Skipped(EmptyText) <==> text == []
    ensures r.Skipped? ==> r.reason == EmptyText
    ensures text != [] && date.BadDate? ==> r == Raised(UnparseableDate)
    ensures r.Queued? ==> r.item.text == Scanning.Gaps(text, 0, Directives.Tokens(text))
    ensures r.Queued? ==> r.item.flags.Keys == Directives.FlagMap(Directives.FindAll(text)).Keys
    ensures text != [] && BaseTime(date, now).Ok? && "delay" !in Directives.FlagMap(Directives.FindAll(text)) ==>
      r == Queued(Scheduled(BaseTime(date, now).value, Directives.Parse(text).0, Directives.Parse(text).1))
    ensures text != [] && BaseTime(date, now).Ok? ==>
      var delayed := Directives.ApplyDelay(BaseTime(date, now).value, Directives.Parse(text).1);
      && (delayed.Ok? ==> r == Queued(Scheduled(delayed.value.0, Directives.Parse(text).0, delayed.value.1)))
      && (delayed.Err? ==> r == Raised(Overflowed(delayed.error)))
  {
    if text == [] then Skipped(EmptyText)
    else match BaseTime(date, now)
      case Err(e) => Raised(e)
      case Ok(at) =>
        var (clean, flags) := Directives.Parse(text);
        match Directives.ApplyDelay(at, flags)
        case Err(o) => Raised(Overflowed(o))
        case Ok((due, flags')) => Queued(Scheduled(due, clean, flags'))
  }

  /** Every flag value can be formatted into a byte string. */
  predicate AsciiFlags(flags: map<string, string>)
  {
    forall key :: key in flags ==> Text.AsciiText(flags[key])
  }

  datatype FetchResult = FetchFailed | Fetched(message: MailMessage)

  /** The answer to `search(None, "(UNSEEN)")`: a failure, or for each unseen
      id in order, what fetching it returns. */
  datatype SearchResult = SearchFailed | SearchOk(fetches: seq<FetchResult>)

  /** The result of handling a batch of fetches: the release queue, the
      entries put on it in order, the exception that ended the batch, and
      whether every message of the batch was handled. */
  datatype Batch = Batch(queue: seq<Scheduled>, added: seq<Scheduled>, crash: Option<ParseError>, completed: bool)

  /** Fetching gave a message, and `parse` queued `item` for it. */
  predicate Yields(f: FetchResult, parse: MailMessage -> ParseOutcome, item: Scheduled)
  {
    f.Fetched? && parse(f.message) == Queued(item)
  }

  /** Every entry in `added` is what `parse` made of one of the fetched messages. */
  ghost predicate FromFetches(added: seq<Scheduled>, fetches: seq<FetchResult>, parse: MailMessage -> ParseOutcome)
  {
    forall x :: x in added ==> exists f :: f in fetches && Yields(f, parse, x)
  }

  lemma FromFetchesCons(item: Scheduled, added: seq<Scheduled>, fetches: seq<FetchResult>, parse: MailMessage -> ParseOutcome)
    requires fetches != [] && FromFetches(added, fetches[1..], parse)
    requires Yields(fetches[0], parse, item)
    ensures FromFetches([item] + added, fetches, parse)
  {
    forall x | x in [item] + added
      ensures exists f :: f in fetches && Yields(f, parse, x)
    {
      if x == item {
        assert fetches[0] in fetches;
      } else {
        var f :| f in fetches[1..] && Yields(f, parse, x);
        assert f in fetches;
      }
    }
  }

  /** A fetch in a non-empty batch is its first one or one of the rest. */
  lemma HeadOrTail(fetches: seq<FetchResult>)
    requires fetches != []
    ensures forall f :: f in fetches <==> f == fetches[0] || f in fetches[1..]
  {
    assert fetches == [fetches[0]] + fetches[1..];
  }

  lemma FromFetchesSkip(added: seq<Scheduled>, fetches: seq<FetchResult>, parse: MailMessage -> ParseOutcome)
    requires fetches != [] && FromFetches(added, fetches[1..], parse)
    ensures FromFetches(added, fetches, parse)
  {
    forall x | x in added
      ensures exists f :: f in fetches && Yields(f, parse, x)
    {
      var f :| f in fetches[1..] && Yields(f, parse, x);
      assert f in fetches;
    }
  }

  /** Handling the fetch goes on to the next one: it gave a message whose
      parse did not raise. */
  predicate Continues(f: FetchResult, parse: MailMessage -> ParseOutcome)
  {
    f.Fetched? && !parse(f.message).Raised?
  }

  /** The position of the first fetch that ends the batch, `|fetches|` when
      none does. */
  function StopAt(fetches: seq<FetchResult>, parse: MailMessage -> ParseOutcome): (n: nat)
    ensures n <= |fetches|
    ensures forall k :: 0 <= k < n ==> Continues(fetches[k], parse)
    ensures n < |fetches| ==> !Continues(fetches[n], parse)
  {
    if fetches == [] || !Continues(fetches[0], parse) then 0
    else 1 + StopAt(fetches[1..], parse)
  }

  /** The entries `parse` makes of the fetched messages, in order. */
  function QueuedItems(fetches: seq<FetchResult>, parse: MailMessage -> ParseOutcome): seq<Scheduled>
  {
    if fetches == [] then []
    else
      var head := fetches[0];
      (if head.Fetched? && parse(head.message).Queued? then [parse(head.message).item] else [])
        + QueuedItems(fetches[1..], parse)
  }

  /** The exception a batch ends with: the one raised by the message at
      which it stops, if it stops at a message rather than a failed fetch. */
  function CrashAt(fetches: seq<FetchResult>, parse: MailMessage -> ParseOutcome): Option<ParseError>
  {
    var n := StopAt(fetches, parse);
    if n < |fetches| && fetches[n].Fetched? then Some(parse(fetches[n].message).error) else None
  }

  /** The `for num in unseen` loop of both readers: each fetched message is
      parsed and its entry queued; a failed fetch ends the batch quietly and
      an exception from `parse` ends it for good. Every queued entry comes
      from one of the fetched messages, nothing already queued is lost, and
      the batch completes exactly when every fetch succeeded and nothing
      raised. */
  function ProcessFetches(queue: seq<Scheduled>, fetches: seq<FetchResult>, parse: MailMessage -> ParseOutcome): (r: Batch)
    requires Sorted(queue)
    ensures Sorted(r.queue)
    ensures multiset(r.queue) == multiset(queue) + multiset(r.added)
    ensures r.added == [] ==> r.queue == queue
    ensures (forall f :: f in fetches && f.Fetched? ==> !parse(f.message).Queued?) ==> r.added == []
    ensures FromFetches(r.added, fetches, parse)
    ensures r.completed ==> r.crash.None?
    ensures r.completed <==> forall f :: f in fetches ==> f.Fetched? && !parse(f.message).Raised?
    decreases |fetches|
  {
    if fetches == [] then Batch(queue, [], None, true)
    else match fetches[0]
      case FetchFailed =>
        assert fetches[0] in fetches;
        Batch(queue, [], None, false)
      case Fetched(msg) =>
        match parse(msg)
        case Raised(e) =>
          assert fetches[0] in fetches;
          Batch(queue, [], Some(e), false)
        case Skipped(_) =>
          var rest := ProcessFetches(queue, fetches[1..], parse);
          FromFetchesSkip(rest.added, fetches, parse);
          HeadOrTail(fetches);
          rest
        case Queued(item) =>
          var rest := ProcessFetches(Insert(item, queue), fetches[1..], parse);
          assert Yields(fetches[0], parse, item);
          FromFetchesCons(item, rest.added, fetches, parse);
          HeadOrTail(fetches);
          Batch(rest.queue, [item] + rest.added, rest.crash, rest.completed)
  }

  /** Past a fetch that does not stop the batch, the reference description
      of the batch is the head's entry followed by that of the rest. */
  lemma StopAtStep(fetches: seq<FetchResult>, parse: MailMessage -> ParseOutcome)
    requires fetches != [] && Continues(fetches[0], parse)
    ensures StopAt(fetches, parse) == 1 + StopAt(fetches[1..], parse)
    ensures QueuedItems(fetches[..StopAt(fetches, parse)], parse) ==
      (if parse(fetches[0].message).Queued? then [parse(fetches[0].message).item] else [])
        + QueuedItems(fetches[1..][..StopAt(fetches[1..], parse)], parse)
    ensures CrashAt(fetches, parse) == CrashAt(fetches[1..], parse)
  {
    var n := StopAt(fetches, parse);
    var prefix := fetches[..n];
    assert prefix[0] == fetches[0];
    assert prefix[1..] == fetches[1..][..n - 1];
  }

  /** Completeness of the batch: it queues exactly the entries of the
      messages before the fetch that stops it, in order, ends with that
      message's exception, and completes iff nothing stops it. */
  lemma {:induction false} BatchIsReference(queue: seq<Scheduled>, fetches: seq<FetchResult>, parse: MailMessage -> ParseOutcome)
    requires Sorted(queue)
    ensures var r := ProcessFetches(queue, fetches, parse);
      && r.added == QueuedItems(fetches[..StopAt(fetches, parse)], parse)
      && r.crash == CrashAt(fetches, parse)
      && (r.completed <==> StopAt(fetches, parse) == |fetches|)
    decreases |fetches|
  {
    if fetches != [] && Continues(fetches[0], parse) {
      StopAtStep(fetches, parse);
      var msg := fetches[0].message;
      if parse(msg).Queued? {
        BatchIsReference(Insert(parse(msg).item, queue), fetches[1..], parse);
      } else {
        BatchIsReference(queue, fetches[1..], parse);
      }
    }
  }

  /** A failed fetch stops the batch: nothing after it is looked at. */
  lemma {:induction false} FailedFetchStopsBatch(queue: seq<Scheduled>, a: seq<FetchResult>, b: seq<FetchResult>, parse: MailMessage -> ParseOutcome)
    requires Sorted(queue)
    ensures var stopped := ProcessFetches(queue, a + [FetchFailed] + b, parse);
      var prefix := ProcessFetches(queue, a, parse);
      stopped.queue == prefix.queue && stopped.added == prefix.added && stopped.crash == prefix.crash
    decreases |a|
  {
    if a == [] {
      assert a + [FetchFailed] + b == [FetchFailed] + b;
    } else {
      assert (a + [FetchFailed] + b)[0] == a[0];
      assert (a + [FetchFailed] + b)[1..] == a[1..] + [FetchFailed] + b;
      match a[0]
      case FetchFailed =>
      case Fetched(msg) =>
        match parse(msg)
        case Raised(_) =>
        case Skipped(_) => FailedFetchStopsBatch(queue, a[1..], b, parse);
        case Queued(item) => FailedFetchStopsBatch(Insert(item, queue), a[1..], b, parse);
    }
  }
}

=== FILE: mime.dfy ===
/** A parsed e-mail as a tree of MIME parts, and the two ways the source
    collects its plain text: the mailbox feed walks the tree
    (src/pipumpkin/emailfeed.py `_get_plain_text`), the IMAP monitor recurses
    over it (src/pipumpkin/imapmonitor.py `_get_plain_text`). */
module Mime {
  import opened Wrappers
  import opened Text

  /** A leaf carries its content type, its Content-Transfer-Encoding header
      (if any) and its undecoded payload. A container's content type is
      a "multipart" or "message" type, never text/plain: the e-mail parser only
      builds containers for those. */
  datatype MimePart =
    | Leaf(contentType: string, transferEncoding: Option<string>, payload: string)
    | Container(parts: seq<MimePart>)

  /** A leaf's text: the payload decoded for its transfer encoding and
      charset. The decoders themselves are outside the model. */
  type Decoder = (Option<string>, string) -> string

  predicate IsPlainLeaf(m: MimePart)
  {
    m.Leaf? && m.contentType == "text/plain"
  }

  /** `message.walk()`: the part itself, then its sub-parts depth first. */
  function Walk(m: MimePart): seq<MimePart>
    decreases m, 1
  {
    [m] + (if m.Container? then WalkAll(m.parts) else [])
  }

  function WalkAll(ps: seq<MimePart>): seq<MimePart>
    decreases ps, 0
  {
    if ps == [] then [] else Walk(ps[0]) + WalkAll(ps[1..])
  }

  /** A string is empty or neither begins nor ends with whitespace. */
  predicate Trimmed(s: string)
  {
    s == [] || (!IsSpace(s[0]) && !IsSpace(s[|s| - 1]))
  }

  /** The text one part contributes: its stripped decoded payload if it is
      text/plain, nothing otherwise. */
  function PartText(m: MimePart, decode: Decoder): (r: string)
    ensures Trimmed(r)
  {
    if IsPlainLeaf(m) then Strip(decode(m.transferEncoding, m.payload)) else ""
  }

  lemma TrimmedConcat(a: string, b: string)
    requires Trimmed(a) && Trimmed(b)
    ensures Trimmed(a + b)
  {
    if a != [] && b != [] {
      assert (a + b)[0] == a[0];
      assert (a + b)[|a + b| - 1] == b[|b| - 1];
    }
  }

  /** `"".join(...)` of the texts of a list of parts, in order. */
  function JoinTexts(parts: seq<MimePart>, decode: Decoder): (r: string)
    ensures Trimmed(r)
  {
    if parts == [] then ""
    else
      var rest := JoinTexts(parts[1..], decode);
      TrimmedConcat(PartText(parts[0], decode), rest);
      PartText(parts[0], decode) + rest
  }

  /** The mailbox feed's `_get_plain_text`: the stripped text/plain parts
      met on `walk()`, concatenated. The result has no surrounding
      whitespace, since every piece is stripped. */
  function WalkPlainText(m: MimePart, decode: Decoder): (r: string)
    ensures Trimmed(r)
  {
    JoinTexts(Walk(m), decode)
  }

  /** The IMAP monitor's decoding: base64 when the transfer encoding says so
      (compared case-insensitively), the raw payload otherwise. */
  function ImapDecoder(base64Decode: string -> string): Decoder
  {
    (encoding: Option<string>, payload: string) =>
      if encoding.Some? && Lower(encoding.value) == "base64" then base64Decode(payload) else payload
  }

  /** The IMAP monitor's recursive `_get_plain_text`. */
  function RecursivePlainText(m: MimePart, base64Decode: string -> string): (r: string)
    ensures m.Leaf? && m.contentType != "text/plain" ==> r == ""
    ensures Trimmed(r)
    decreases m, 1
  {
    match m
    case Leaf(ct, encoding, payload) =>
      if ct == "text/plain" then
        Strip(if encoding.Some? && Lower(encoding.value) == "base64" then base64Decode(payload) else payload)
      else ""
    case Container(parts) => RecursivePlainTextAll(parts, base64Decode)
  }

  function RecursivePlainTextAll(ps: seq<MimePart>, base64Decode: string -> string): (r: string)
    ensures Trimmed(r)
    decreases ps, 0
  {
    if ps == [] then ""
    else
      var head := RecursivePlainText(ps[0], base64Decode);
      var rest := RecursivePlainTextAll(ps[1..], base64Decode);
      TrimmedConcat(head, rest);
      head + rest
  }

  lemma {:induction false} JoinTextsAppend(a: seq<MimePart>, b: seq<MimePart>, decode: Decoder)
    ensures JoinTexts(a + b, decode) == JoinTexts(a, decode) + JoinTexts(b, decode)
    decreases |a|
  {
    if a != [] {
      assert (a + b)[1..] == a[1..] + b;
      JoinTextsAppend(a[1..], b, decode);
    } else {
      assert a + b == b;
    }
  }

  /** The recursive extraction and the walk-based one agree: a part's text
      is its own stripped payload followed by its sub-parts' texts in order. */
  lemma {:induction false} RecursiveEqualsWalk(m: MimePart, base64Decode: string -> string)
    ensures RecursivePlainText(m, base64Decode) == WalkPlainText(m, ImapDecoder(base64Decode))
    decreases m, 1
  {
    var decode := ImapDecoder(base64Decode);
    match m
    case Leaf(_, _, _) =>
      assert Walk(m) == [m];
      assert JoinTexts([m], decode) == PartText(m, decode) + JoinTexts([], decode);
    case Container(parts) =>
      RecursiveEqualsWalkAll(parts, base64Decode);
      assert Walk(m) == [m] + WalkAll(parts);
      assert JoinTexts([m] + WalkAll(parts), decode) == PartText(m, decode) + JoinTexts(WalkAll(parts), decode) by {
        assert ([m] + WalkAll(parts))[1..] == WalkAll(parts);
      }
  }

  lemma {:induction false} RecursiveEqualsWalkAll(ps: seq<MimePart>, base64Decode: string -> string)
    ensures RecursivePlainTextAll(ps, base64Decode) == JoinTexts(WalkAll(ps), ImapDecoder(base64Decode))
    decreases ps, 0
  {
    if ps != [] {
      RecursiveEqualsWalk(ps[0], base64Decode);
      RecursiveEqualsWalkAll(ps[1..], base64Decode);
      JoinTextsAppend(Walk(ps[0]), WalkAll(ps[1..]), ImapDecoder(base64Decode));
    }
  }
}

=== FILE: pumpkin.dfy ===
/** The speaking loop (src/pipumpkin/pumpkin.py, class `PiPumpkin`): it
    takes due entries off the release queue, turns their flags into speech
    engine properties and says their text, and mails a heartbeat every
    half hour. The speech engine is modelled as the log of calls made to
    it; `ifconfig` as the list of addresses it reports. */
module Pumpkin {
  import opened Wrappers
  import opened Clock
  import opened Text
  import opened ReleaseQueue
  import EmailFeed

  /** A property value as the engine receives it. */
  datatype PropValue = IntValue(i: int) | FloatValue(x: real) | StrValue(s: string)

  /** Python's `float(text)`, left abstract: `None` when it raises
      `ValueError`. */
  type FloatCast = string -> Option<real>

  datatype EngineCall = SetProperty(name: string, value: PropValue) | Say(text: string)

  /** The keys of `valid_properties`. */
  const PropertyNames: set<string> := {"rate", "volume", "voice"}

  /** The order in which the engine properties are set; all three are set
      before `say`, so the order does not change what is spoken. */
  const PropertyOrder: seq<string> := ["rate", "volume", "voice"]

  const DefaultRate: int := 135
  const DefaultVoice: string := "english"

  /** `heartbeat_period`. */
  const HeartbeatPeriod: nat := Clock.Seconds(30 * 60)

  // ---------------------------------------------------------------------
  // Casting flag values
  // ---------------------------------------------------------------------

  /** What Python 2's `int()` accepts from a string: optional white space, an
      optional sign, optional white space, one or more ASCII digits,
      optional white space. */
  predicate IntLiteral(s: string)
  {
    var t := Strip(s);
    var body := if t != [] && (t[0] == '+' || t[0] == '-') then t[1..] else t;
    var digits := body[LeadingSpaces(body)..];
    digits != [] && AllDigits(digits)
  }

  /** `int(value)`, `None` when it raises `ValueError`. */
  function IntCast(v: string): (r: Option<int>)
    ensures r.Some? <==> IntLiteral(v)
    ensures r.Some? && AllDigits(v) ==> r.value == DecimalValue(v)
  {
    SignedDigits(Strip(v))
  }

  /** The stripped literal read as an optional sign, white space and
      digits. */
  function SignedDigits(t: string): Option<int>
  {
    if t != [] && t[0] == '-' then
      match UnsignedPart(t[1..])
      case Some(n) => Some(-(n as int))
      case None => None
    else if t != [] && t[0] == '+' then UnsignedPart(t[1..])
    else UnsignedPart(t)
  }

  /** White space, then digits read as their decimal value. */
  function UnsignedPart(body: string): Option<nat>
  {
    var digits := body[LeadingSpaces(body)..];
    if digits != [] && AllDigits(digits) then Some(DecimalValue(digits)) else None
  }

  /** `str(n)` for an integer. */
  function IntText(n: int): string
  {
    if n < 0 then "-" + NatToString(-n) else NatToString(n)
  }

  /** `int(str(n)) == n`. */
  lemma IntCastRoundTrip(n: int)
    ensures IntCast(IntText(n)) == Some(n)
  {
    var m := if n < 0 then -n else n;
    DecimalRoundTrip(m);
    var digits := NatToString(m);
    var sign := if n < 0 then "-" else "";
    ConcatEmpty(sign);
    ConcatEmpty(digits);
    assert [] + sign + [] + digits + [] == sign + digits;
    IntCastValue([], sign, [], digits, []);
  }

  lemma ConcatAssoc(a: string, b: string, c: string)
    ensures a + b + c == a + (b + c)
  {
  }

  lemma ConcatEmpty(a: string)
    ensures [] + a == a && a + [] == a
  {
  }

  /** The first and last characters of a concatenation. */
  lemma ConcatEnds(a: string, b: string)
    requires b != []
    ensures (a + b)[|a + b| - 1] == b[|b| - 1]
    ensures a != [] ==> (a + b)[0] == a[0]
    ensures a == [] ==> (a + b)[0] == b[0]
  {
  }

  predicate AllSpace(s: string)
  {
    forall k :: 0 <= k < |s| ==> IsSpace(s[k])
  }

  /** White space before a non-space character is exactly the leading run. */
  lemma LeadingSpacesOf(pre: string, rest: string)
    requires AllSpace(pre) && rest != [] && !IsSpace(rest[0])
    ensures LeadingSpaces(pre + rest) == |pre|
  {
    var s := pre + rest;
    var n := LeadingSpaces(s);
    assert s[|pre|] == rest[0];
    assert forall k | 0 <= k < |pre| :: s[k] == pre[k];
  }

  /** Stripping white space around a core that starts and ends with
      non-space characters gives the core. */
  lemma StripOf(pre: string, core: string, post: string)
    requires AllSpace(pre) && AllSpace(post)
    requires core != [] && !IsSpace(core[0]) && !IsSpace(core[|core| - 1])
    ensures Strip(pre + core + post) == core
  {
    var s := pre + core + post;
    assert s == pre + (core + post);
    LeadingSpacesOf(pre, core + post);
    var r := Strip(s);
    var last := |pre| + |core| - 1;
    assert s[last] == core[|core| - 1];
    assert s[|pre|..|pre| + |core|] == core;
  }

  /** White space before digits is skipped. */
  lemma UnsignedPartValue(mid: string, digits: string)
    requires AllSpace(mid)
    requires digits != [] && AllDigits(digits)
    ensures UnsignedPart(mid + digits) == Some(DecimalValue(digits))
  {
    LeadingSpacesOf(mid, digits);
    assert (mid + digits)[|mid|..] == digits;
  }

  /** A sign, white space after it, then digits read as the signed value
      of the digits. */
  lemma SignedDigitsValue(sign: char, mid: string, digits: string)
    requires AllSpace(mid)
    requires sign == '+' || sign == '-'
    requires digits != [] && AllDigits(digits)
    ensures SignedDigits([sign] + mid + digits) ==
      Some(if sign == '-' then -(DecimalValue(digits) as int) else DecimalValue(digits))
  {
    ConcatAssoc([sign], mid, digits);
    UnsignedPartValue(mid, digits);
    SignedStep(sign, mid + digits, DecimalValue(digits));
  }

  /** A leading sign is taken off before the digits are read. */
  lemma SignedStep(sign: char, body: string, v: nat)
    requires sign == '+' || sign == '-'
    requires UnsignedPart(body) == Some(v)
    ensures SignedDigits([sign] + body) == Some(if sign == '-' then -(v as int) else v)
  {
    assert ([sign] + body)[1..] == body;
  }

  /** The value of every literal `int()` accepts: optional white space, an
      optional sign, white space after a sign, ASCII digits, white space;
      negative exactly when the sign is "-". */
  lemma IntCastValue(pre: string, sign: string, mid: string, digits: string, post: string)
    requires AllSpace(pre) && AllSpace(mid) && AllSpace(post)
    requires sign == "" || sign == "+" || sign == "-"
    requires sign == "" ==> mid == ""
    requires digits != [] && AllDigits(digits)
    ensures IntCast(pre + sign + mid + digits + post) ==
      Some(if sign == "-" then -(DecimalValue(digits) as int) else DecimalValue(digits))
  {
    var core := sign + mid + digits;
    ConcatAssoc(pre, sign, mid);
    ConcatAssoc(pre, sign + mid, digits);
    ConcatAssoc(sign, mid, digits);
    ConcatAssoc(pre, sign, mid + digits);
    assert IsDigit(digits[0]) && IsDigit(digits[|digits| - 1]);
    SignedCoreEnds(sign, mid, digits);
    StripOf(pre, core, post);
    SignedCoreValue(sign, mid, digits);
  }

  /** The literal between the outer white space starts and ends with a
      non-space character. */
  lemma SignedCoreEnds(sign: string, mid: string, digits: string)
    requires sign == "" || sign == "+" || sign == "-"
    requires sign == "" ==> mid == ""
    requires digits != [] && IsDigit(digits[0]) && IsDigit(digits[|digits| - 1])
    ensures var core := sign + mid + digits;
      core != [] && !IsSpace(core[0]) && !IsSpace(core[|core| - 1])
  {
    ConcatEnds(sign + mid, digits);
    if sign == "" {
      ConcatEmpty(digits);
    } else {
      ConcatEnds(sign, mid + digits);
      ConcatAssoc(sign, mid, digits);
    }
  }

  /** The literal between the outer white space reads as the signed
      digits. */
  lemma SignedCoreValue(sign: string, mid: string, digits: string)
    requires AllSpace(mid)
    requires sign == "" || sign == "+" || sign == "-"
    requires sign == "" ==> mid == ""
    requires digits != [] && AllDigits(digits)
    ensures SignedDigits(sign + mid + digits) ==
      Some(if sign == "-" then -(DecimalValue(digits) as int) else DecimalValue(digits))
  {
    if sign == "" {
      ConcatEmpty(digits);
      assert IsDigit(digits[0]);
      UnsignedPartValue([], digits);
    } else {
      assert sign == [sign[0]];
      SignedDigitsValue(sign[0], mid, digits);
    }
  }

  /** `str(value)` on a unicode value: the ASCII codec raises
      `UnicodeEncodeError`, a `ValueError`, on any other character. */
  function StrCast(v: string): (r: Option<string>)
    ensures r.Some? <==> forall k :: 0 <= k < |v| ==> IsAscii(v[k])
    ensures r.Some? ==> r.value == v
  {
    if AsciiText(v) then Some(v) else None
  }

  /** The cast `valid_properties` gives `key`, applied to `value`; `None`
      when the key has no cast or the cast raises. */
  function Cast(key: string, value: string, castFloat: FloatCast): (r: Option<PropValue>)
    ensures key !in PropertyNames ==> r.None?
    ensures key == "rate" ==> r == (if IntCast(value).Some? then Some(IntValue(IntCast(value).value)) else None)
    ensures key == "volume" ==> r == (if castFloat(value).Some? then Some(FloatValue(castFloat(value).value)) else None)
    ensures key == "voice" ==> r == (if StrCast(value).Some? then Some(StrValue(value)) else None)
  {
    if key == "rate" then
      match IntCast(value) case Some(n) => Some(IntValue(n)) case None => None
    else if key == "volume" then
      match castFloat(value) case Some(x) => Some(FloatValue(x)) case None => None
    else if key == "voice" then
      match StrCast(value) case Some(s) => Some(StrValue(s)) case None => None
    else None
  }

  /** `pyttsx_flags`: the flags of a supported property whose value casts,
      converted; every other flag is dropped without aborting the entry. */
  function CastFlags(flags: map<string, string>, castFloat: FloatCast): (r: map<string, PropValue>)
    ensures r.Keys <= PropertyNames && r.Keys <= flags.Keys
    ensures forall key :: key in r <==> key in flags && Cast(key, flags[key], castFloat).Some?
    ensures forall key :: key in r ==> r[key] == Cast(key, flags[key], castFloat).value
  {
    map key | key in flags.Keys && Cast(key, flags[key], castFloat).Some? :: Cast(key, flags[key], castFloat).value
  }

  /** The value each default property is set to for an utterance: the
      converted flag where there is one, the default otherwise. */
  function Settings(defaults: map<string, PropValue>, cast: map<string, PropValue>): (r: map<string, PropValue>)
    ensures r.Keys == defaults.Keys
    ensures forall key :: key in r ==> r[key] == (if key in cast then cast[key] else defaults[key])
  {
    map key | key in defaults :: if key in cast then cast[key] else defaults[key]
  }

  /** The calls made to the engine for one utterance: every property set
      once, in `PropertyOrder`, then `say`. */
  function Utterance(settings: map<string, PropValue>, text: string): (r: seq<EngineCall>)
    requires settings.Keys == PropertyNames
    ensures |r| == |PropertyOrder| + 1 && r[|r| - 1] == Say(text)
    ensures forall k :: 0 <= k < |PropertyOrder| ==> r[k] == SetProperty(PropertyOrder[k], settings[PropertyOrder[k]])
  {
    seq(|PropertyOrder|, k requires 0 <= k < |PropertyOrder| => SetProperty(PropertyOrder[k], settings[PropertyOrder[k]]))
      + [Say(text)]
  }

  /** `PropertyOrder` lists each supported property exactly once. */
  lemma PropertyOrderIsPropertyNames()
    ensures forall name :: name in PropertyNames <==> name in PropertyOrder
    ensures forall i, j :: 0 <= i < j < |PropertyOrder| ==> PropertyOrder[i] != PropertyOrder[j]
  {
    assert PropertyOrder[0] == "rate" && PropertyOrder[1] == "volume" && PropertyOrder[2] == "voice";
  }

  // ---------------------------------------------------------------------
  // The speaking loop
  // ---------------------------------------------------------------------

  /** The state `run()` builds: the property defaults, the time of the last
      heartbeat, the utterance counter, and the mailbox feed whose release
      queue it consumes and whose send queue carries its heartbeats. */
  datatype PiPumpkin = PiPumpkin(
    defaults: map<string, PropValue>,
    lastHeartbeat: Instant,
    uttering: int,
    feed: EmailFeed.Feed)

  /** `property_defaults`: the engine's own volume, a rate of 135 and the
      English voice. */
  function Defaults(engineVolume: PropValue): (d: map<string, PropValue>)
    ensures d.Keys == PropertyNames
    ensures d["rate"] == IntValue(DefaultRate) && d["voice"] == StrValue(DefaultVoice) && d["volume"] == engineVolume
  {
    map["rate" := IntValue(DefaultRate), "volume" := engineVolume, "voice" := StrValue(DefaultVoice)]
  }

  function AddressList(addrs: seq<string>): string
  {
    Join(addrs, ", ")
  }

  function StartupText(addrs: seq<string>): string
  {
    "Ready to go! Will look for e-mails now. My IP addresses are " + AddressList(addrs) + ". Love, pipumpkin."
  }

  function AliveText(addrs: seq<string>): string
  {
    "I am still alive! My IP addresses are " + AddressList(addrs) + ". Love, pipumpkin."
  }

  /** The start of `run()`: defaults in place, the start-up heartbeat on the
      send queue, the heartbeat clock started, nobody speaking. */
  function Start(engineVolume: PropValue, feed: EmailFeed.Feed, now: Instant, addrs: seq<string>): (p: PiPumpkin)
    ensures p.defaults.Keys == PropertyNames
    ensures p.lastHeartbeat == now && p.uttering == 0
    ensures p.feed.sendQueue == feed.sendQueue + [EmailFeed.OutMail(EmailFeed.HeartbeatSubject, feed.user, feed.user, StartupText(addrs))]
    ensures p.feed.queue == feed.queue
  {
    PiPumpkin(Defaults(engineVolume), now, 0, EmailFeed.SendHeartbeat(feed, StartupText(addrs)))
  }

  /** One `loop()` call: the new state, whether it mailed a heartbeat, the
      entry it spoke, and the calls it made to the engine. */
  datatype Tick = Tick(pumpkin: PiPumpkin, heartbeat: bool, spoken: Option<Scheduled>, calls: seq<EngineCall>)

  /** `loop()`. A heartbeat goes out when strictly more than half an hour
      has passed since the last one. Then the head of the release queue is
      spoken if it is due; an empty queue, or a head in the future (which is
      put straight back), leaves the queue as it was and the engine alone. */
  function Loop(p: PiPumpkin, now: Instant, addrs: seq<string>, castFloat: FloatCast): (r: Tick)
    requires Sorted(p.feed.queue) && p.defaults.Keys == PropertyNames
    ensures Sorted(r.pumpkin.feed.queue)
    ensures r.pumpkin.defaults == p.defaults && r.pumpkin.uttering == p.uttering
    ensures r.heartbeat <==> ElapsedMoreThan(now, p.lastHeartbeat, HeartbeatPeriod)
    ensures r.pumpkin.lastHeartbeat == if r.heartbeat then now else p.lastHeartbeat
    ensures r.pumpkin.feed.sendQueue == p.feed.sendQueue +
      (if r.heartbeat then [EmailFeed.OutMail(EmailFeed.HeartbeatSubject, p.feed.user, p.feed.user, AliveText(addrs))] else [])
    ensures r.spoken.None? <==> forall k :: 0 <= k < |p.feed.queue| ==> p.feed.queue[k].at > now
    ensures r.spoken.None? ==> r.calls == [] && r.pumpkin.feed.queue == p.feed.queue
    ensures r.spoken.Some? ==> r.spoken.value.at <= now && r.spoken.value == p.feed.queue[0]
    ensures r.spoken.Some? ==> r.pumpkin.feed.queue == p.feed.queue[1..]
    ensures r.spoken.Some? ==> multiset(r.pumpkin.feed.queue) + multiset{r.spoken.value} == multiset(p.feed.queue)
    ensures r.spoken.Some? ==>
      r.calls == Utterance(Settings(p.defaults, CastFlags(r.spoken.value.flags, castFloat)), r.spoken.value.text)
  {
    var heartbeat := ElapsedMoreThan(now, p.lastHeartbeat, HeartbeatPeriod);
    var p1 := if heartbeat then p.(feed := EmailFeed.SendHeartbeat(p.feed, AliveText(addrs)), lastHeartbeat := now) else p;
    var (item, rest) := TryPopDue(p1.feed.queue, now);
    match item
    case None => Tick(p1, heartbeat, None, [])
    case Some(it) =>
      var settings := Settings(p.defaults, CastFlags(it.flags, castFloat));
      Tick(p1.(feed := p1.feed.(queue := rest)), heartbeat, Some(it), Utterance(settings, it.text))
  }

  /** In an utterance every property is set exactly once, to its setting,
      and the text is said exactly once, last. */
  lemma UtteranceSetsEachOnce(settings: map<string, PropValue>, text: string, name: string)
    requires settings.Keys == PropertyNames && name in PropertyNames
    ensures var calls := Utterance(settings, text);
      && |set k | 0 <= k < |calls| && calls[k].SetProperty? && calls[k].name == name| == 1
      && (exists k :: 0 <= k < |calls| && calls[k] == SetProperty(name, settings[name]))
      && |set k | 0 <= k < |calls| && calls[k].Say?| == 1
      && calls[|calls| - 1] == Say(text)
  {
    var calls := Utterance(settings, text);
    PropertyOrderIsPropertyNames();
    var i :| 0 <= i < |PropertyOrder| && PropertyOrder[i] == name;
    assert calls[i] == SetProperty(name, settings[name]);
    assert (set k | 0 <= k < |calls| && calls[k].SetProperty? && calls[k].name == name) == {i};
    assert (set k | 0 <= k < |calls| && calls[k].Say?) == {|calls| - 1};
  }

  /** Every default property is set exactly once for a spoken entry, to the
      converted flag when there is one and to its default otherwise, and the
      entry's text is said exactly once, after all of them. */
  lemma SpokenWithDefaultsFilled(p: PiPumpkin, now: Instant, addrs: seq<string>, castFloat: FloatCast, name: string)
    requires Sorted(p.feed.queue) && p.defaults.Keys == PropertyNames
    requires Loop(p, now, addrs, castFloat).spoken.Some?
    requires name in PropertyNames
    ensures var r := Loop(p, now, addrs, castFloat);
      var flags := r.spoken.value.flags;
      var expected := if name in flags && Cast(name, flags[name], castFloat).Some?
                      then Cast(name, flags[name], castFloat).value else p.defaults[name];
      && |set k | 0 <= k < |r.calls| && r.calls[k].SetProperty? && r.calls[k].name == name| == 1
      && (exists k :: 0 <= k < |r.calls| && r.calls[k] == SetProperty(name, expected))
      && |set k | 0 <= k < |r.calls| && r.calls[k].Say?| == 1
      && r.calls[|r.calls| - 1] == Say(r.spoken.value.text)
  {
    var r := Loop(p, now, addrs, castFloat);
    var item := r.spoken.value;
    var settings := Settings(p.defaults, CastFlags(item.flags, castFloat));
    UtteranceSetsEachOnce(settings, item.text, name);
  }

  /** `engine.iterate()` callbacks: an utterance starting or finishing. */
  function UtteranceStarted(p: PiPumpkin): (r: PiPumpkin)
    ensures r.uttering == p.uttering + 1 && r == p.(uttering := r.uttering)
  {
    p.(uttering := p.uttering + 1)
  }

  function UtteranceFinished(p: PiPumpkin): (r: PiPumpkin)
    ensures r.uttering == p.uttering - 1 && r == p.(uttering := r.uttering)
  {
    p.(uttering := p.uttering - 1)
  }

  /** One pass of the main loop of `run()`: `loop()` runs only while no
      utterance is in progress. */
  function MainIteration(p: PiPumpkin, now: Instant, addrs: seq<string>, castFloat: FloatCast): (r: Tick)
    requires Sorted(p.feed.queue) && p.defaults.Keys == PropertyNames
    ensures p.uttering != 0 ==> r == Tick(p, false, None, [])
    ensures p.uttering == 0 ==> r == Loop(p, now, addrs, castFloat)
  {
    if p.uttering == 0 then Loop(p, now, addrs, castFloat) else Tick(p, false, None, [])
  }

  /** While an utterance started and has not finished, the queue is not
      touched and no heartbeat is sent; once it finishes, the loop resumes. */
  lemma SilentWhileSpeaking(p: PiPumpkin, now: Instant, addrs: seq<string>, castFloat: FloatCast)
    requires Sorted(p.feed.queue) && p.defaults.Keys == PropertyNames && p.uttering == 0
    ensures MainIteration(UtteranceStarted(p), now, addrs, castFloat).calls == []
    ensures MainIteration(UtteranceStarted(p), now, addrs, castFloat).pumpkin == UtteranceStarted(p)
    ensures MainIteration(UtteranceFinished(UtteranceStarted(p)), now, addrs, castFloat) == Loop(p, now, addrs, castFloat)
  {
    assert UtteranceFinished(UtteranceStarted(p)) == p;
  }
}

=== FILE: release_queue.dfy ===
/** The release queue: `Queue.PriorityQueue` of `(scheduled_at, text, flags)`
    tuples shared by the mailbox reader (producer) and the speaking loop
    (consumer). It is modelled as a sequence kept sorted by time and then
    text, so its head is the entry `get()` returns. */
module ReleaseQueue {
  import opened Wrappers
  import opened Text
  import opened Clock

  /** A message waiting to be spoken at `at`. */
  datatype Scheduled = Scheduled(at: Instant, text: string, flags: map<string, string>)

  /** Tuple order on `(at, text)`. */
  predicate KeyLe(a: Scheduled, b: Scheduled)
  {
    a.at < b.at || (a.at == b.at && StrLe(a.text, b.text))
  }

  lemma KeyLeTotal(a: Scheduled, b: Scheduled)
    ensures KeyLe(a, b) || KeyLe(b, a)
  {
    StrLeTotal(a.text, b.text);
  }

  lemma KeyLeTransitive(a: Scheduled, b: Scheduled, c: Scheduled)
    requires KeyLe(a, b) && KeyLe(b, c)
    ensures KeyLe(a, c)
  {
    if a.at == b.at && b.at == c.at {
      StrLeTransitive(a.text, b.text, c.text);
    }
  }

  ghost predicate Sorted(q: seq<Scheduled>)
  {
    forall i, j :: 0 <= i < j < |q| ==> KeyLe(q[i], q[j])
  }

  /** `queue.put(x)`: the entry goes in before the first entry that does not
      precede it, and nothing else moves. */
  function Insert(x: Scheduled, q: seq<Scheduled>): (r: seq<Scheduled>)
    requires Sorted(q)
    ensures Sorted(r)
    ensures multiset(r) == multiset(q) + multiset{x}
    ensures |r| == |q| + 1
  {
    if q == [] || KeyLe(x, q[0]) then
      assert forall j :: 0 <= j < |q| ==> KeyLe(x, q[j]) by {
        forall j | 0 <= j < |q| ensures KeyLe(x, q[j]) {
          if j > 0 {
            KeyLeTransitive(x, q[0], q[j]);
          }
        }
      }
      [x] + q
    else
      KeyLeTotal(x, q[0]);
      var rest := Insert(x, q[1..]);
      assert q == [q[0]] + q[1..];
      assert forall y :: y in rest ==> KeyLe(q[0], y) by {
        forall y | y in rest ensures KeyLe(q[0], y) {
          assert y in multiset(rest);
          if y != x {
            assert y in multiset(q[1..]);
            assert y in q[1..];
          }
        }
      }
      [q[0]] + rest
  }

  /** One dequeue as the speaking loop performs it: `get(block=False)`, and
      if the entry is not yet due, `put` it straight back. */
  function TryPopDue(q: seq<Scheduled>, now: Instant): (r: (Option<Scheduled>, seq<Scheduled>))
    requires Sorted(q)
    ensures Sorted(r.1)
    ensures r.0.None? ==> r.1 == q
    ensures r.0.None? ==> forall k :: 0 <= k < |q| ==> q[k].at > now
    ensures r.0.Some? ==> r.0.value.at <= now
    ensures r.0.Some? ==> q != [] && r.0.value == q[0] && r.1 == q[1..]
    ensures r.0.Some? ==> multiset(r.1) + multiset{r.0.value} == multiset(q)
    ensures r.0.Some? ==> forall k :: 0 <= k < |r.1| ==> KeyLe(r.0.value, r.1[k])
  {
    if q == [] then (None, q)
    else if q[0].at > now then
      var back := Insert(q[0], q[1..]);
      assert back == q;
      (None, back)
    else
      assert q == [q[0]] + q[1..];
      (Some(q[0]), q[1..])
  }
}

=== FILE: scanning.dfy ===
/** Leftmost, non-overlapping matching of a pattern over a string: the scan
    that Python's `re.findall` and `re.sub` perform for a pattern that never
    matches the empty string.

    A pattern is given as a `Matcher`: `m(s, i)` is `Some(e)` when the pattern
    matches `s[i..e]` (and regex greediness has already chosen `e`), `None`
    when it cannot match starting at `i`. */
module Scanning {
  import opened Wrappers

  type Matcher = (string, nat) -> Option<nat>

  /** Matches are non-empty and lie inside the string. */
  ghost predicate ValidMatcher(m: Matcher)
  {
    forall s: string, i: nat :: m(s, i).Some? ==> i < m(s, i).value <= |s|
  }

  /** A matched region `s[start..end]`. */
  datatype Span = Span(start: nat, end: nat)

  /** Spans inside `[from, len)`, non-empty, in increasing order and disjoint. */
  ghost predicate InOrder(spans: seq<Span>, from: nat, len: nat)
  {
    && (forall k :: 0 <= k < |spans| ==> from <= spans[k].start < spans[k].end <= len)
    && (forall k, j :: 0 <= k < j < |spans| ==> spans[k].end <= spans[j].start)
  }

  ghost predicate Covered(spans: seq<Span>, p: nat)
  {
    exists k :: 0 <= k < |spans| && spans[k].start <= p < spans[k].end
  }

  /** The declarative meaning of a left-to-right scan from `from`: every span
      is a match, the spans are ordered and disjoint, and the pattern matches
      at no position that the spans leave uncovered. */
  ghost predicate IsLeftmostParse(m: Matcher, s: string, from: nat, spans: seq<Span>)
  {
    && InOrder(spans, from, |s|)
    && (forall k :: 0 <= k < |spans| ==> m(s, spans[k].start) == Some(spans[k].end))
    && (forall p :: from <= p < |s| && !Covered(spans, p) ==> m(s, p).None?)
  }

  /** The matches `re.findall` reports, scanning `s` from position `i`. */
  function Scan(m: Matcher, s: string, i: nat): (spans: seq<Span>)
    requires ValidMatcher(m) && i <= |s|
    ensures IsLeftmostParse(m, s, i, spans)
    decreases |s| - i
  {
    if i == |s| then []
    else match m(s, i)
      case Some(e) =>
        var rest := Scan(m, s, e);
        ParseCons(m, s, i, e, rest);
        [Span(i, e)] + rest
      case None => Scan(m, s, i + 1)
  }

  /** A match at `i` followed by the leftmost parse from its end is the
      leftmost parse from `i`. */
  lemma ParseCons(m: Matcher, s: string, i: nat, e: nat, rest: seq<Span>)
    requires i < e <= |s| && m(s, i) == Some(e)
    requires IsLeftmostParse(m, s, e, rest)
    ensures IsLeftmostParse(m, s, i, [Span(i, e)] + rest)
  {
    var spans := [Span(i, e)] + rest;
    assert forall k :: 0 < k < |spans| ==> spans[k] == rest[k - 1];
    assert InOrder(spans, i, |s|);
    forall p | i <= p < e
      ensures Covered(spans, p)
    {
      assert spans[0].start <= p < spans[0].end;
    }
    forall p | e <= p < |s| && !Covered(spans, p)
      ensures !Covered(rest, p)
    {
      forall k | 0 <= k < |rest|
        ensures !(rest[k].start <= p < rest[k].end)
      {
        assert spans[k + 1] == rest[k];
      }
    }
  }

  /** What `re.sub(pattern, "", s[i..])` returns. */
  function Sub(m: Matcher, s: string, i: nat): string
    requires ValidMatcher(m) && i <= |s|
    decreases |s| - i
  {
    if i == |s| then []
    else match m(s, i)
      case Some(e) => Sub(m, s, e)
      case None => [s[i]] + Sub(m, s, i + 1)
  }

  /** The text of `s[from..]` outside the given spans, in order. */
  function Gaps(s: string, from: nat, spans: seq<Span>): string
    requires from <= |s| && InOrder(spans, from, |s|)
    decreases |spans|
  {
    if spans == [] then s[from..]
    else s[from..spans[0].start] + Gaps(s, spans[0].end, spans[1..])
  }

  lemma {:induction false} GapsPrepend(s: string, i: nat, spans: seq<Span>)
    requires i < |s| && InOrder(spans, i + 1, |s|)
    ensures InOrder(spans, i, |s|)
    ensures Gaps(s, i, spans) == [s[i]] + Gaps(s, i + 1, spans)
  {
    if spans != [] {
      assert s[i..spans[0].start] == [s[i]] + s[i + 1..spans[0].start];
    } else {
      assert s[i..] == [s[i]] + s[i + 1..];
    }
  }

  /** `re.sub` deletes exactly the spans `re.findall` reports and keeps every
      other character, in order. */
  lemma {:induction false} SubDeletesScannedSpans(m: Matcher, s: string, i: nat)
    requires ValidMatcher(m) && i <= |s|
    ensures Sub(m, s, i) == Gaps(s, i, Scan(m, s, i))
    decreases |s| - i
  {
    if i < |s| {
      match m(s, i)
      case Some(e) =>
        SubDeletesScannedSpans(m, s, e);
        var spans := Scan(m, s, i);
        assert spans[0] == Span(i, e) && spans[1..] == Scan(m, s, e);
      case None =>
        SubDeletesScannedSpans(m, s, i + 1);
        GapsPrepend(s, i, Scan(m, s, i + 1));
    }
  }

  /** A text with no match anywhere comes back from `re.sub` unchanged. */
  lemma SubWithoutMatches(m: Matcher, s: string)
    requires ValidMatcher(m)
    requires forall p :: 0 <= p < |s| ==> m(s, p).None?
    ensures Scan(m, s, 0) == []
    ensures Sub(m, s, 0) == s
  {
    SubDeletesScannedSpans(m, s, 0);
  }

  lemma {:induction false} ParseTail(m: Matcher, s: string, from: nat, spans: seq<Span>)
    requires IsLeftmostParse(m, s, from, spans) && spans != []
    ensures IsLeftmostParse(m, s, spans[0].end, spans[1..])
  {
    var rest := spans[1..];
    forall p | spans[0].end <= p < |s| && !Covered(rest, p)
      ensures !Covered(spans, p)
    {
      forall k | 0 <= k < |spans|
        ensures !(spans[k].start <= p < spans[k].end)
      {
        if k > 0 {
          assert rest[k - 1] == spans[k];
        }
      }
    }
  }

  /** A parse starts no later than any match at or after its origin. */
  lemma FirstSpanIsFirstMatch(m: Matcher, s: string, from: nat, spans: seq<Span>, p: nat)
    requires IsLeftmostParse(m, s, from, spans)
    requires from <= p < |s| && m(s, p).Some?
    ensures spans != [] && spans[0].start <= p
  {
  }

  /** There is only one leftmost parse: the declarative description determines
      the scan. */
  lemma {:induction false} ParseUnique(m: Matcher, s: string, from: nat, a: seq<Span>, b: seq<Span>)
    requires IsLeftmostParse(m, s, from, a) && IsLeftmostParse(m, s, from, b)
    ensures a == b
    decreases |a|
  {
    if a != [] {
      FirstSpansAgree(m, s, from, a, b);
      ParseTail(m, s, from, a);
      ParseTail(m, s, from, b);
      ParseUnique(m, s, a[0].end, a[1..], b[1..]);
      assert a == [a[0]] + a[1..];
      assert b == [b[0]] + b[1..];
    } else if b != [] {
      FirstSpansAgree(m, s, from, b, a);
    }
  }

  /** Two leftmost parses from the same origin start with the same span. */
  lemma FirstSpansAgree(m: Matcher, s: string, from: nat, a: seq<Span>, b: seq<Span>)
    requires IsLeftmostParse(m, s, from, a) && IsLeftmostParse(m, s, from, b)
    requires a != []
    ensures b != [] && a[0] == b[0]
  {
    FirstSpanIsFirstMatch(m, s, from, b, a[0].start);
    FirstSpanIsFirstMatch(m, s, from, a, b[0].start);
  }

  /** The scan is exactly the leftmost parse. */
  lemma ScanIsTheLeftmostParse(m: Matcher, s: string, from: nat, spans: seq<Span>)
    requires ValidMatcher(m) && from <= |s|
    ensures IsLeftmostParse(m, s, from, spans) <==> spans == Scan(m, s, from)
  {
    if IsLeftmostParse(m, s, from, spans) {
      ParseUnique(m, s, from, spans, Scan(m, s, from));
    }
  }
}

=== FILE: scenario.dfy ===
/** One message followed end to end: the mailbox text
    "Hello there rate:100 delay:2s" received at `t0` is queued for `t0 + 2s`
    with its directives removed, a dispatch tick at `t0 + 1s` does nothing,
    and one at `t0 + 3s` speaks it at rate 100
    (src/pipumpkin/emailfeed.py, `parse_email`; src/pipumpkin/pumpkin.py,
    `loop`). */
module Scenario {
  import opened Wrappers
  import opened Clock
  import opened ReleaseQueue
  import opened Messages
  import Text
  import Scanning
  import Directives
  import Pumpkin

  const Message: string := "Hello there rate:100 delay:2s"

  /** The message text, described by its pieces. */
  predicate IsMessage(s: string)
  {
    |s| == 29 && s[..12] == "Hello there " && s[12..20] == "rate:100" && s[20..] == " delay:2s"
  }

  /** The description the lemmas below assume fits exactly one text: the
      message. */
  lemma DescribesTheMessage(s: string)
    ensures IsMessage(s) <==> s == Message
  {
    if IsMessage(s) {
      assert s == s[..12] + s[12..20] + s[20..];
    }
  }

  /** What the parser leaves of the message: both directives deleted, the
      spaces around them kept. */
  const CleanText: string := "Hello there  "

  /** A word followed by a space starts no token. */
  lemma NoTokenBeforeSpace(s: string, i: nat, c: nat)
    requires i <= c < |s| && s[c] == ' '
    requires forall k :: i <= k < c ==> Text.IsWordChar(s[k])
    ensures Directives.TokenAt(s, i).None?
  {
    Directives.RunEndIs(s, i, c, Text.IsWordChar);
  }

  lemma MessageRuns(s: string)
    requires IsMessage(s)
    ensures Directives.RunEnd(s, 12, Text.IsWordChar) == 16
    ensures Directives.RunEnd(s, 17, Directives.NotSpace) == 20
    ensures Directives.RunEnd(s, 21, Text.IsWordChar) == 26
    ensures Directives.RunEnd(s, 27, Directives.NotSpace) == 29
  {
    Directives.RunEndIs(s, 12, 16, Text.IsWordChar);
    Directives.RunEndIs(s, 17, 20, Directives.NotSpace);
    Directives.RunEndIs(s, 21, 26, Text.IsWordChar);
    Directives.RunEndIs(s, 27, 29, Directives.NotSpace);
  }

  lemma MessageTokenMatches(s: string)
    requires IsMessage(s)
    ensures Directives.TokenAt(s, 12) == Some(20)
    ensures Directives.TokenAt(s, 21) == Some(29)
  {
    MessageRuns(s);
  }

  lemma MessageNoOtherTokens(s: string)
    requires IsMessage(s)
    ensures forall p :: 0 <= p < 12 ==> Directives.TokenAt(s, p).None?
    ensures Directives.TokenAt(s, 20).None?
  {
    forall p | 0 <= p < 12 ensures Directives.TokenAt(s, p).None? {
      if p <= 5 {
        NoTokenBeforeSpace(s, p, 5);
      } else {
        NoTokenBeforeSpace(s, p, 11);
      }
    }
    NoTokenBeforeSpace(s, 20, 20);
  }

  lemma MessageTokens(s: string)
    requires IsMessage(s)
    ensures Directives.Tokens(s) == [Scanning.Span(12, 20), Scanning.Span(21, 29)]
  {
    var spans := [Scanning.Span(12, 20), Scanning.Span(21, 29)];
    var m := Directives.TokenMatcher;
    MessageTokenMatches(s);
    MessageNoOtherTokens(s);
    assert forall p :: 12 <= p < 20 || 21 <= p < 29 ==> Scanning.Covered(spans, p) by {
      forall p | 12 <= p < 20 || 21 <= p < 29 ensures Scanning.Covered(spans, p) {
        if p < 20 {
          assert spans[0].start <= p < spans[0].end;
        } else {
          assert spans[1].start <= p < spans[1].end;
        }
      }
    }
    assert Scanning.IsLeftmostParse(m, s, 0, spans);
    Scanning.ParseUnique(m, s, 0, spans, Directives.Tokens(s));
  }

  /** Two tokens give two pairs, in order. */
  lemma TwoPairs(s: string, a: Scanning.Span, b: Scanning.Span, pa: (string, string), pb: (string, string))
    requires Directives.Tokens(s) == [a, b]
    requires Directives.TokenAt(s, a.start) == Some(a.end) && Directives.TokenPair(s, a) == pa
    requires Directives.TokenAt(s, b.start) == Some(b.end) && Directives.TokenPair(s, b) == pb
    ensures Directives.FindAll(s) == [pa, pb]
  {
    var pairs := Directives.FindAll(s);
    assert pairs[0] == pa && pairs[1] == pb;
  }

  lemma MessagePairs(s: string)
    requires IsMessage(s)
    ensures Directives.FindAll(s) == [("rate", "100"), ("delay", "2s")]
  {
    MessageTokens(s);
    MessageTokenMatches(s);
    MessageRuns(s);
    assert s[12..16] == s[12..20][..4] && s[17..20] == s[12..20][5..];
    assert s[21..26] == s[20..][1..6] && s[27..29] == s[20..][7..];
    Directives.PairAt(s, Scanning.Span(12, 20), 16, "rate", "100");
    Directives.PairAt(s, Scanning.Span(21, 29), 26, "delay", "2s");
    TwoPairs(s, Scanning.Span(12, 20), Scanning.Span(21, 29), ("rate", "100"), ("delay", "2s"));
  }

  lemma TwoFlags(pairs: seq<(string, string)>)
    requires pairs == [("rate", "100"), ("delay", "2s")]
    ensures Directives.FlagMap(pairs) == map["rate" := "100", "delay" := "2s"]
  {
    assert Text.Lower("rate") == "rate";
    assert Text.Lower("delay") == "delay";
    assert pairs[..1] == [("rate", "100")];
    assert pairs[..1][..0] == [];
  }

  /** The gaps around two spans. */
  lemma GapsOfTwo(s: string, a: Scanning.Span, b: Scanning.Span)
    requires a.start < a.end <= b.start < b.end == |s|
    ensures Scanning.InOrder([a, b], 0, |s|)
    ensures Scanning.Gaps(s, 0, [a, b]) == s[..a.start] + s[a.end..b.start]
  {
    assert [a, b][1..] == [b];
    assert Scanning.Gaps(s, b.end, []) == [];
    assert Scanning.Gaps(s, a.end, [b]) == s[a.end..b.start];
  }

  lemma MessageCleanText(s: string)
    requires IsMessage(s)
    ensures Scanning.Gaps(s, 0, Directives.Tokens(s)) == CleanText
  {
    MessageTokens(s);
    GapsOfTwo(s, Scanning.Span(12, 20), Scanning.Span(21, 29));
    assert s[..12] == "Hello there " && s[20..21] == " ";
  }

  lemma MessageDelay(v: string)
    requires v == "2s"
    ensures Directives.DelayOf(v) == Some((2, Directives.Seconds))
    ensures Directives.FloatText(2) == "2.0"
  {
    Directives.RunEndIs(v, 0, 1, Text.IsDigit);
    assert v[..1] == "2";
    assert Text.DecimalValue("2") == 2 by {
      assert "2"[..0] == [];
    }
  }

  /** The entry queued for the message received at `t0` with no Date
      header. */
  function Entry(t0: Instant): Scheduled
    requires t0 + Clock.Seconds(2) <= MaxInstant
  {
    Scheduled(t0 + Clock.Seconds(2), CleanText, map["rate" := "100", "delay" := "2.0 seconds"])
  }

  /** "delay:2s" moves the time by two seconds and is echoed as
      "2.0 seconds"; the other flag is untouched. */
  lemma MessageApplyDelay(t0: Instant)
    requires t0 + Clock.Seconds(2) <= MaxInstant
    ensures Directives.ApplyDelay(t0, map["rate" := "100", "delay" := "2s"]) ==
      Ok((t0 + Clock.Seconds(2), map["rate" := "100", "delay" := "2.0 seconds"]))
  {
    MessageDelay("2s");
    assert "2.0" + " " + "seconds" == "2.0 seconds";
    var flags := map["rate" := "100", "delay" := "2s"];
    assert flags["delay" := "2.0 seconds"] == map["rate" := "100", "delay" := "2.0 seconds"];
  }

  /** A text with these flags and this clean text, received at `t0`
      without a Date header, is queued for `t0 + 2s`. */
  lemma ScheduledFromParts(s: string, t0: Instant)
    requires s != [] && t0 + Clock.Seconds(2) <= MaxInstant
    requires Directives.FlagMap(Directives.FindAll(s)) == map["rate" := "100", "delay" := "2s"]
    requires Scanning.Gaps(s, 0, Directives.Tokens(s)) == CleanText
    ensures Schedule(s, NoDate, t0) == Queued(Entry(t0))
  {
    MessageApplyDelay(t0);
    var parsed := Directives.Parse(s);
    assert parsed == (CleanText, map["rate" := "100", "delay" := "2s"]);
  }

  /** Received at `t0`, the message is queued for `t0 + 2s` as "Hello there  "
      (neither the removed directives nor the surrounding spaces trimmed),
      with its delay echoed as "2.0 seconds". */
  lemma MessageIsScheduled(s: string, t0: Instant)
    requires IsMessage(s)
    requires t0 + Clock.Seconds(2) <= MaxInstant
    ensures Schedule(s, NoDate, t0) == Queued(Entry(t0))
  {
    MessagePairs(s);
    TwoFlags(Directives.FindAll(s));
    MessageCleanText(s);
    ScheduledFromParts(s, t0);
  }

  lemma RateCasts(v: string)
    requires v == "100"
    ensures Pumpkin.IntCast(v) == Some(100)
  {
    assert Text.LeadingSpaces(v) == 0;
    assert Text.Strip(v) == v;
    assert v[..2] == "10" && v[..2][..1] == "1" && v[..2][..1][..0] == [];
    assert Text.AllDigits(v);
    assert Text.DecimalValue(v[..2][..1]) == 1;
    assert Text.DecimalValue(v[..2]) == 10;
    assert Text.DecimalValue(v) == 100;
    assert v[0..] == v;
  }

  /** The entry's flags set the rate to 100; its `delay` flag is no engine
      property and is dropped. */
  lemma EntrySettings(t0: Instant, defaults: map<string, Pumpkin.PropValue>, castFloat: Pumpkin.FloatCast)
    requires t0 + Clock.Seconds(2) <= MaxInstant && defaults.Keys == Pumpkin.PropertyNames
    ensures var settings := Pumpkin.Settings(defaults, Pumpkin.CastFlags(Entry(t0).flags, castFloat));
      settings.Keys == Pumpkin.PropertyNames && settings["rate"] == Pumpkin.IntValue(100)
  {
    var flags := Entry(t0).flags;
    RateCasts(flags["rate"]);
    var cast := Pumpkin.CastFlags(flags, castFloat);
    assert "rate" in cast;
  }

  /** The dispatcher, holding only that entry, says nothing a second after
      `t0` and leaves the entry queued. */
  lemma MessageWaits(p: Pumpkin.PiPumpkin, t0: Instant, addrs: seq<string>, castFloat: Pumpkin.FloatCast)
    requires t0 + Clock.Seconds(2) <= MaxInstant
    requires p.feed.queue == [Entry(t0)] && p.defaults.Keys == Pumpkin.PropertyNames
    ensures Pumpkin.Loop(p, t0 + Clock.Seconds(1), addrs, castFloat).calls == []
    ensures Pumpkin.Loop(p, t0 + Clock.Seconds(1), addrs, castFloat).pumpkin.feed.queue == [Entry(t0)]
  {
    assert Pumpkin.Loop(p, t0 + Clock.Seconds(1), addrs, castFloat).spoken.None?;
  }

  /** Three seconds after `t0` the dispatcher takes the entry off the
      queue, sets the rate to 100 first and says the clean text last. */
  lemma MessageIsSpokenWhenDue(p: Pumpkin.PiPumpkin, t0: Instant, addrs: seq<string>, castFloat: Pumpkin.FloatCast)
    requires t0 + Clock.Seconds(3) <= MaxInstant
    requires p.feed.queue == [Entry(t0)] && p.defaults.Keys == Pumpkin.PropertyNames
    ensures var r := Pumpkin.Loop(p, t0 + Clock.Seconds(3), addrs, castFloat);
      && r.pumpkin.feed.queue == []
      && r.calls[0] == Pumpkin.SetProperty("rate", Pumpkin.IntValue(100))
      && r.calls[|r.calls| - 1] == Pumpkin.Say(CleanText)
  {
    var r := Pumpkin.Loop(p, t0 + Clock.Seconds(3), addrs, castFloat);
    assert r.spoken == Some(Entry(t0));
    EntrySettings(t0, p.defaults, castFloat);
    assert Pumpkin.PropertyOrder[0] == "rate";
  }
}

=== FILE: text.dfy ===
/** Character classes and string helpers with Python 2 semantics.

    The regular expressions of the source are compiled without `re.UNICODE`,
    so `\w` is `[A-Za-z0-9_]`, `\d` is `[0-9]` and `\s` is the six ASCII
    whitespace characters; case-insensitive matching folds ASCII letters only. */
module Text {

  predicate IsDigit(c: char)
  {
    '0' <= c <= '9'
  }

  predicate IsWordChar(c: char)
  {
    'a' <= c <= 'z' || 'A' <= c <= 'Z' || IsDigit(c) || c == '_'
  }

  /** space, \t, \n, \r, \v, \f */
  predicate IsSpace(c: char)
  {
    c == ' ' || c == '\t' || c == '\n' || c == '\r' || c as int == 11 || c as int == 12
  }

  predicate IsAscii(c: char)
  {
    c as int < 128
  }

  /** Text that Python 2's ASCII codec can encode: what `str()` and
      formatting into a byte string accept without `UnicodeEncodeError`. */
  predicate AsciiText(s: string)
  {
    forall k :: 0 <= k < |s| ==> IsAscii(s[k])
  }

  predicate AllDigits(s: string)
  {
    forall k :: 0 <= k < |s| ==> IsDigit(s[k])
  }

  function ToLower(c: char): char
  {
    if 'A' <= c <= 'Z' then (c as int + 32) as char else c
  }

  /** `str.lower` on ASCII text. */
  function Lower(s: string): (r: string)
    ensures |r| == |s|
    ensures forall k :: 0 <= k < |s| ==> r[k] == ToLower(s[k])
  {
    seq(|s|, k requires 0 <= k < |s| => ToLower(s[k]))
  }

  /** Python's `s[:n]`. */
  function Take(s: string, n: nat): (r: string)
    ensures |r| == if |s| <= n then |s| else n
    ensures r == s[..|r|]
  {
    if |s| <= n then s else s[..n]
  }

  /** `sep.join(parts)`. */
  function Join(parts: seq<string>, sep: string): string
  {
    if parts == [] then []
    else if |parts| == 1 then parts[0]
    else parts[0] + sep + Join(parts[1..], sep)
  }

  // ---------------------------------------------------------------------
  // str.strip()

  function LeadingSpaces(s: string): (n: nat)
    ensures n <= |s|
    ensures forall k :: 0 <= k < n ==> IsSpace(s[k])
    ensures n == |s| || !IsSpace(s[n])
  {
    if s != [] && IsSpace(s[0]) then 1 + LeadingSpaces(s[1..]) else 0
  }

  function DropTrailingSpace(s: string): (r: string)
    ensures |r| <= |s| && r == s[..|r|]
    ensures r == [] || !IsSpace(r[|r| - 1])
    ensures forall k :: |r| <= k < |s| ==> IsSpace(s[k])
  {
    if s != [] && IsSpace(s[|s| - 1]) then DropTrailingSpace(s[..|s| - 1]) else s
  }

  /** `str.strip()`: the maximal run of whitespace is removed from each end. */
  function Strip(s: string): (r: string)
    ensures LeadingSpaces(s) + |r| <= |s|
    ensures r == s[LeadingSpaces(s)..LeadingSpaces(s) + |r|]
    ensures forall k :: 0 <= k < LeadingSpaces(s) ==> IsSpace(s[k])
    ensures forall k :: LeadingSpaces(s) + |r| <= k < |s| ==> IsSpace(s[k])
    ensures r == [] || (!IsSpace(r[0]) && !IsSpace(r[|r| - 1]))
  {
    DropTrailingSpace(s[LeadingSpaces(s)..])
  }

  /** Stripping twice is stripping once. */
  lemma StripIdempotent(s: string)
    ensures Strip(Strip(s)) == Strip(s)
  {
    var r := Strip(s);
    assert LeadingSpaces(r) == 0;
  }

  // ---------------------------------------------------------------------
  // Ordering of text, as Python compares unicode strings: by code point,
  // a proper prefix first.

  predicate StrLe(a: string, b: string)
    decreases |a|
  {
    if a == [] then true
    else if b == [] then false
    else if a[0] != b[0] then a[0] < b[0]
    else StrLe(a[1..], b[1..])
  }

  lemma {:induction false} StrLeTotal(a: string, b: string)
    ensures StrLe(a, b) || StrLe(b, a)
    decreases |a|
  {
    if a != [] && b != [] && a[0] == b[0] {
      StrLeTotal(a[1..], b[1..]);
    }
  }

  lemma {:induction false} StrLeTransitive(a: string, b: string, c: string)
    requires StrLe(a, b) && StrLe(b, c)
    ensures StrLe(a, c)
    decreases |a|
  {
    if a != [] && b != [] && c != [] && a[0] == b[0] && b[0] == c[0] {
      StrLeTransitive(a[1..], b[1..], c[1..]);
    }
  }

  // ---------------------------------------------------------------------
  // Decimal numerals

  function DigitChar(d: nat): (c: char)
    requires d < 10
    ensures IsDigit(c)
  {
    ('0' as int + d) as char
  }

  function DigitValue(c: char): nat
    requires IsDigit(c)
  {
    c as int - '0' as int
  }

  /** The value of a run of ASCII digits, as `int(s)` or `float(s)` reads it. */
  function DecimalValue(s: string): nat
    requires AllDigits(s)
  {
    if s == [] then 0 else DecimalValue(s[..|s| - 1]) * 10 + DigitValue(s[|s| - 1])
  }

  /** The shortest decimal numeral of `n`, as `str(n)` writes it. */
  function NatToString(n: nat): (r: string)
    ensures |r| >= 1 && AllDigits(r)
    ensures |r| > 1 ==> r[0] != '0'
    decreases n
  {
    if n < 10 then [DigitChar(n)] else NatToString(n / 10) + [DigitChar(n % 10)]
  }

  /** Writing a number and reading it back gives the number. */
  lemma {:induction false} DecimalRoundTrip(n: nat)
    ensures DecimalValue(NatToString(n)) == n
    decreases n
  {
    if n >= 10 {
      DecimalRoundTrip(n / 10);
      var s := NatToString(n);
      assert s[..|s| - 1] == NatToString(n / 10);
    }
  }
}

=== FILE: tweeter.dfy ===
/** The Twitter account wrapper (src/pipumpkin/tweeter.py, class
    `TweeterFeed`). Every API call is replaced by its answer, given as an
    argument: the account's own screen name, whether a status update
    raised, and the mentions timeline as a function of the query. */
module Tweeter {
  import opened Wrappers
  import opened Clock
  import Text

  /** A status as the mentions timeline returns it. */
  datatype Tweet = Tweet(id: int, createdAt: Instant, text: string)

  /** tweepy's `TweepError`, and this module's `FeedError`. */
  datatype TweepError = TweepError
  datatype FeedError = FeedError

  /** The wrapper's only state: `cached_screen_name`, `None` at first. */
  datatype Feed = Feed(cachedScreenName: Option<string>)

  /** A call of `update_status`. */
  datatype Status = Status(text: string, inReplyTo: Option<int>)

  /** The arguments of a `mentions_timeline` query. */
  datatype Query = Query(trimUser: bool, sinceId: Option<int>)

  type Timeline = Query -> Result<seq<Tweet>, TweepError>

  const MaxTweetLength: nat := 140

  /** `"I'm alive! (%s)" % status`, before truncation. */
  function AliveTemplate(status: string): string
  {
    "I'm alive! (" + status + ")"
  }

  /** The alive tweet: the template cut to 140 characters. It is a prefix of
      the template, and the whole template whenever that fits. */
  function AliveText(status: string): (r: string)
    ensures |r| <= MaxTweetLength
    ensures r <= AliveTemplate(status)
    ensures |status| + 13 <= MaxTweetLength ==> r == AliveTemplate(status)
    ensures |status| + 13 > MaxTweetLength ==> |r| == MaxTweetLength
  {
    Text.Take(AliveTemplate(status), MaxTweetLength)
  }

  /** `tweet_alive`: posts the alive text and reports success unless
      `update_status` raised, which it swallows. */
  function TweetAlive(status: string, updateRaises: bool): (r: (Status, bool))
    ensures r.0 == Status(AliveText(status), None)
    ensures r.1 <==> !updateRaises
  {
    (Status(AliveText(status), None), !updateRaises)
  }

  /** Python's truth value of a string held in an attribute that may be
      `None`. */
  predicate NonEmpty(name: Option<string>)
  {
    name.Some? && name.value != []
  }

  /** The outcome of `get_screen_name`: the wrapper afterwards, the name or
      the `TweepError` that escaped, and whether the API was asked. */
  datatype NameLookup = NameLookup(feed: Feed, name: Result<string, TweepError>, queried: bool)

  /** `get_screen_name`: asks `api.me()` only while the cache is empty, and
      keeps what it answers. */
  function GetScreenName(f: Feed, me: Result<string, TweepError>): (r: NameLookup)
    ensures r.queried <==> !NonEmpty(f.cachedScreenName)
    ensures !r.queried ==> r.feed == f && r.name == Ok(f.cachedScreenName.value)
    ensures r.queried ==> r.name == me
    ensures r.queried && me.Ok? ==> r.feed == Feed(Some(me.value))
    ensures me.Err? ==> r.feed == f
  {
    if NonEmpty(f.cachedScreenName) then NameLookup(f, Ok(f.cachedScreenName.value), false)
    else match me
      case Ok(name) => NameLookup(Feed(Some(name)), Ok(name), true)
      case Err(e) => NameLookup(f, Err(e), true)
  }

  /** Once a non-empty name has been fetched, later lookups never ask the API
      again and always give that name, whatever the API would say. */
  lemma ScreenNameIsMemoised(f: Feed, me: Result<string, TweepError>, later: Result<string, TweepError>)
    requires me.Ok? && me.value != []
    ensures var first := GetScreenName(f, me);
      first.name.Ok? &&
      var second := GetScreenName(first.feed, later);
      !second.queried && second.feed == first.feed && second.name == first.name
  {
  }

  /** An empty screen name is not remembered: the next lookup asks again. */
  lemma EmptyNameIsAskedAgain(f: Feed, later: Result<string, TweepError>)
    requires !NonEmpty(f.cachedScreenName)
    ensures GetScreenName(GetScreenName(f, Ok("")).feed, later).queried
  {
  }

  /** The `mentions_timeline` call of `get_latest_mention_id`. */
  const LatestQuery: Query := Query(false, None)

  /** `get_latest_mention_id`: the id of the first tweet of the timeline,
      `None` when it is empty; a `TweepError` becomes a `FeedError`. */
  function GetLatestMentionId(timeline: Timeline): (r: Result<Option<int>, FeedError>)
    ensures r.Err? <==> timeline(LatestQuery).Err?
    ensures r == Ok(None) <==> timeline(LatestQuery) == Ok([])
    ensures r.Ok? && r.value.Some? ==>
      timeline(LatestQuery).Ok? && timeline(LatestQuery).value != [] && r.value.value == timeline(LatestQuery).value[0].id
  {
    match timeline(LatestQuery)
    case Err(_) => Err(FeedError)
    case Ok(tweets) => if tweets == [] then Ok(None) else Ok(Some(tweets[0].id))
  }

  /** The query of `get_mentions_after`: users trimmed, and a `since_id`
      only when the given one is truthy, that is neither `None` nor 0. */
  function MentionsQuery(sinceId: Option<int>): (q: Query)
    ensures q.trimUser
    ensures q.sinceId.Some? <==> sinceId.Some? && sinceId.value != 0
    ensures q.sinceId.Some? ==> q.sinceId == sinceId
  {
    if sinceId.Some? && sinceId.value != 0 then Query(true, sinceId) else Query(true, None)
  }

  /** `get_mentions_after`: every tweet the query returns, in its order; a
      `TweepError` becomes a `FeedError`. */
  function GetMentionsAfter(sinceId: Option<int>, timeline: Timeline): (r: Result<seq<Tweet>, FeedError>)
    ensures r.Err? <==> timeline(MentionsQuery(sinceId)).Err?
    ensures r.Ok? ==> r.value == timeline(MentionsQuery(sinceId)).value
  {
    match timeline(MentionsQuery(sinceId))
    case Err(_) => Err(FeedError)
    case Ok(tweets) => Ok(tweets)
  }

  /** A falsy cursor of 0 asks for the same tweets as no cursor at all. */
  lemma ZeroCursorIsNoCursor(timeline: Timeline)
    ensures GetMentionsAfter(Some(0), timeline) == GetMentionsAfter(None, timeline)
  {
  }

  /** `"@{0} {1}".format(screen_name, reply_text)`, before truncation. */
  function ReplyTemplate(name: string, replyText: string): string
  {
    "@" + name + " " + replyText
  }

  /** The outcome of `post_reply`: the `TweepError` from the screen-name
      lookup escapes; otherwise the status sent and the value returned. */
  datatype ReplyOutcome = ReplyRaised | ReplySent(status: Status, succeeded: bool)

  /** `post_reply`: replies to `replyToId` with the reply template cut to 140
      characters, and returns false exactly when `update_status` raised. */
  function PostReply(f: Feed, replyToId: int, replyText: string, me: Result<string, TweepError>, updateRaises: bool)
    : (r: (Feed, ReplyOutcome))
    ensures r.0 == GetScreenName(f, me).feed
    ensures r.1.ReplyRaised? <==> GetScreenName(f, me).name.Err?
    ensures r.1.ReplySent? ==> (r.1.succeeded <==> !updateRaises)
    ensures r.1.ReplySent? ==> r.1.status.inReplyTo == Some(replyToId)
    ensures r.1.ReplySent? ==> var full := ReplyTemplate(GetScreenName(f, me).name.value, replyText);
      |r.1.status.text| <= MaxTweetLength && r.1.status.text <= full &&
      (|full| <= MaxTweetLength ==> r.1.status.text == full) &&
      (|full| > MaxTweetLength ==> |r.1.status.text| == MaxTweetLength)
  {
    var lookup := GetScreenName(f, me);
    match lookup.name
    case Err(_) => (lookup.feed, ReplyRaised)
    case Ok(name) =>
      (lookup.feed, ReplySent(Status(Text.Take(ReplyTemplate(name, replyText), MaxTweetLength), Some(replyToId)), !updateRaises))
  }
}

=== FILE: wrappers.dfy ===
/** Failure-carrying values used throughout the model in place of Python's
    `None` returns and raised exceptions. */
module Wrappers {

  datatype Option<+T> = None | Some(value: T)

  datatype Result<+T, +E> = Ok(value: T) | Err(error: E)
}
